=== FILE: README.md ===
# file_validators in Dafny

A model of the decision logic of the Ruby gem `file_validators`: the ActiveModel
validators `FileSizeValidator` and `FileContentTypeValidator`, the content-type
helpers `Utils::ContentTypeDetector`, `Utils::MediaTypeSpoofDetector` and
`Utils::FileCommandContentTypeDetector`, and `MimeTypeAnalyzer`, which
dispatches to one of seven MIME sniffing tools and rewinds the IO it was given.

Every collaborator the gem calls out to is a parameter of the model:

- the `MIME::Types` catalogue is a function from a name to its registered types, and MiniMime is a function from a name to an optional content type;
- the magic-byte sniffers are functions of the bytes: MimeMagic and FastImage give an optional type, FileMagic and Marcel always give a type;
- the `file` subprocess is a function returning its outcome;
- the filesystem is a map from paths to contents;
- JSON parsing is a function returning a value or a parser error;
- regular-expression matching is a predicate.

The Ruby core behaviour the code relies on is written out in the model:

- `String#split` with a one-character separator and with `/[:;\s]+/`;
- `Array#first` and `Array#last`;
- `String#include?` and `String#strip`;
- `File.extname` and `File.basename`;
- ActiveSupport's `blank?` (answered by an object's own `blank?` when it defines one), `Array.wrap` (which calls `to_ary`) and OpenStruct readers.

The modules are:

- `Wrappers` and `Bytes`: `Option`, `Result` and bytes.
- `RubyStrings` and `RubyPaths`: the string and path functions above, with characterisation lemmas.
- `RubyValues`: the Ruby values an upload or an option can be, with `blank?`, `respond_to?` and `send`.
- `MediaTypes`: a registered MIME type, its content type and media type, and the catalogue.
- `ValidationErrors`: `record.errors` as a list of (attribute, key) entries.
- `FileCommandContentTypeDetector`, `ContentTypeDetector`, `MediaTypeSpoofDetector` and `MimeTypeAnalyzer`.
- `FileSizeValidator` and `FileContentTypeValidator`.

The code and the class comment of `ContentTypeDetector` disagree. The comment
describes "standard" and "experimental" registry tiers, which `detect` does
not implement. The model follows the code: after the blank and empty cases the
result is the sniffed type, or the default when nothing was sniffed.

## Model

| member | source | states |
|---|---|---|
| RubyStrings.Split | lib/file_validators/utils/media_type_spoof_detector.rb:29 | Ruby `split` on one character: the raw fields, with trailing empty fields dropped |
| RubyStrings.DropTrailingEmpty | lib/file_validators/utils/media_type_spoof_detector.rb:29 | the result is a prefix of the fields; it ends in a non-empty field; only empty fields were dropped |
| RubyStrings.Fields | lib/file_validators/utils/media_type_spoof_detector.rb:29 | there is at least one raw field, and no field contains a separator |
| RubyStrings.JoinFields | lib/file_validators/utils/media_type_spoof_detector.rb:29 | joining the raw fields with the separator gives back the original string |
| RubyStrings.SplitEmptyIff | lib/file_validators/utils/content_type_detector.rb:73 | `split` returns no fields exactly when the string consists only of separators, so `''.split('/').first` is nil |
| RubyStrings.SplitManyIff | lib/file_validators/utils/media_type_spoof_detector.rb:29 | `split` returns more than one field exactly when some separator is followed later by a non-separator |
| RubyStrings.SplitFirst | lib/file_validators/utils/media_type_spoof_detector.rb:41 | the first field of a non-empty split is the text before the first separator |
| RubyStrings.SplitFirstOrEmpty | lib/file_validators/utils/content_type_detector.rb:73 | `s.split(sep).first \|\| ''` is the text before the first separator, for every string |
| RubyStrings.SplitFieldsPlain | lib/file_validators/utils/media_type_spoof_detector.rb:29 | no field of `split` contains the separator |
| RubyStrings.SplitPlain | lib/file_validators/utils/media_type_spoof_detector.rb:29 | a non-empty string without the separator splits into itself |
| RubyStrings.SplitEndsWith | lib/file_validators/utils/content_type_detector.rb:64 | when a path ends in `/name`, the last field is `name` |
| RubyStrings.SplitOnRunsFirst | lib/file_validators/utils/file_command_content_type_detector.rb:34 | the first field of a split on runs of separators is nil for all-separator text, and otherwise the text before the first separator |
| RubyStrings.SplitOnRunsFieldsPlain | lib/file_validators/utils/file_command_content_type_detector.rb:34 | no field of a run split contains a separator |
| RubyStrings.NonEmpty | lib/file_validators/utils/file_command_content_type_detector.rb:34 | keeps exactly the non-empty fields, in order |
| RubyStrings.First | lib/file_validators/utils/content_type_detector.rb:73 | `Array#first`: nil exactly for the empty array, otherwise element 0 |
| RubyStrings.Last | lib/file_validators/utils/content_type_detector.rb:64 | `Array#last`: nil exactly for the empty array, otherwise the final element |
| RubyStrings.FirstIndex | lib/file_validators/utils/file_command_content_type_detector.rb:34 | the position of the first separator: none occurs before it, and one is there unless it is the length |
| RubyStrings.ContainsIff | lib/file_validators/utils/content_type_detector.rb:69 | `include?` holds exactly when the needle occurs at some position of the haystack |
| RubyStrings.ContainsEmpty | lib/file_validators/utils/content_type_detector.rb:69 | every string includes the empty string |
| RubyStrings.Strip | lib/file_validators/mime_type_analyzer.rb:42 | `strip`: the result neither starts nor ends with whitespace or NUL, it is the middle of the input, and only whitespace was removed |
| RubyPaths.LastComponent | lib/file_validators/utils/content_type_detector.rb:64 | `path.split('/').last`: nil exactly when the path is only slashes; otherwise a non-empty name without `/` |
| RubyPaths.LastComponentAfter | lib/file_validators/utils/content_type_detector.rb:64 | the last component of `dir/name` is `name` |
| RubyPaths.DropLeadingDots | lib/file_validators/utils/content_type_detector.rb:60 | removes exactly the leading dots of a base name |
| RubyPaths.LastDot | lib/file_validators/utils/content_type_detector.rb:60 | the position of the last dot, if there is one |
| RubyPaths.ExtName | lib/file_validators/utils/content_type_detector.rb:60 | `File.extname` is empty or a dot followed by dot-free text taken from the last component; it is empty when there is no component |
| RubyPaths.SplitExtName | lib/file_validators/utils/content_type_detector.rb:60 | `File.extname(p).split('.')` has more than one field exactly when the extension is at least two characters long |
| RubyPaths.ExtNameOfDotless | lib/file_validators/utils/content_type_detector.rb:60 | a last component without a dot has no extension |
| RubyPaths.ExtNameOf | lib/file_validators/utils/content_type_detector.rb:60 | the extension of `stem.ext` is `.ext` |
| RubyPaths.Basename | lib/file_validators/mime_type_analyzer.rb:102 | `File.basename`: empty only for the empty path; `/` for a path of slashes; otherwise the last component |
| RubyValues.Send | lib/file_validators/validators/file_size_validator.rb:75-81 | a method the value responds to answers; an OpenStruct answers nil for a missing field; anything else raises NoMethodError for that name |
| RubyValues.SizeOfCollections | lib/file_validators/validators/file_size_validator.rb:79 | `size` of a string, array or hash is its length |
| RubyValues.IntegerSize | lib/file_validators/validators/file_size_validator.rb:79 | `Integer#size` is 8 for a fixnum |
| RubyValues.Wrap | lib/file_validators/validators/file_size_validator.rb:52 | `Array.wrap`: nil becomes `[]`; a value that does not respond to `to_ary` becomes a one-element array; one that does gives the elements of an array answer, is wrapped for a nil or false answer, and any other answer is no array |
| RubyValues.WrapArray | lib/file_validators/validators/file_size_validator.rb:52 | an array is its own `to_ary`, so `Array.wrap` gives its elements |
| RubyValues.WrapIdempotent | lib/file_validators/validators/file_size_validator.rb:52 | wrapping the result of `Array.wrap` again changes nothing |
| RubyValues.RejectBlank | lib/file_validators/validators/file_size_validator.rb:52 | `reject(&:blank?)` keeps exactly the present elements and nothing else |
| MediaTypes.ContentTypes | lib/file_validators/utils/content_type_detector.rb:97 | `collect(&:content_type)`, element by element |
| MediaTypes.MediaTypesOf | lib/file_validators/utils/media_type_spoof_detector.rb:37 | `collect(&:media_type)`, element by element |
| ValidationErrors.Count | lib/file_validators/validators/file_size_validator.rb:67-71 | the number of times a key was added is zero exactly when the key is absent |
| ValidationErrors.CountAppend | lib/file_validators/validators/file_size_validator.rb:26-28 | the counts of errors added in turn add up |
| FileCommandContentTypeDetector.ParenScanCorrect | lib/file_validators/utils/file_command_content_type_detector.rb:31 | the scanner finds exactly a `(` followed later on the same line by `)`, i.e. a match of `/\(.*?\)/` |
| FileCommandContentTypeDetector.HasParenGroupIff | lib/file_validators/utils/file_command_content_type_detector.rb:31 | `type.match(/\(.*?\)/)` holds exactly when the output has a parenthesised group on one line |
| FileCommandContentTypeDetector.RawType | lib/file_validators/utils/file_command_content_type_detector.rb:24-33 | a command-line error, nil output, or output matching `/\(.*?\)/` becomes the default; any other output is kept as it is |
| FileCommandContentTypeDetector.Detect | lib/file_validators/utils/file_command_content_type_detector.rb:22-35 | the result is nil for output made only of separators; otherwise it is the output (or the default) up to the first `:`, `;` or whitespace, so it contains none of them |
| FileCommandContentTypeDetector.DefaultHasNoSeparator | lib/file_validators/utils/file_command_content_type_detector.rb:10 | the default contains no separator and no parenthesised group |
| FileCommandContentTypeDetector.PlainTokenUnchanged | lib/file_validators/utils/file_command_content_type_detector.rb:31-34 | a single clean token is returned as it is |
| FileCommandContentTypeDetector.TokenReported | lib/file_validators/utils/file_command_content_type_detector.rb:24-34 | whatever the command produced, a non-empty separator-free output after the default substitution is reported as it is |
| FileCommandContentTypeDetector.DefaultUnchanged | lib/file_validators/utils/file_command_content_type_detector.rb:10 | `application/octet-stream` passes through normalisation unchanged |
| FileCommandContentTypeDetector.FailureGivesDefault | lib/file_validators/utils/file_command_content_type_detector.rb:24-33 | a command-line error or nil output gives `application/octet-stream` |
| FileCommandContentTypeDetector.ParenthesisedGivesDefault | lib/file_validators/utils/file_command_content_type_detector.rb:31-33 | output with a parenthesised group gives `application/octet-stream` |
| FileCommandContentTypeDetector.OnlySeparatorsGiveNil | lib/file_validators/utils/file_command_content_type_detector.rb:34 | output made only of separators gives nil |
| FileCommandContentTypeDetector.TokenBeforeSeparator | lib/file_validators/utils/file_command_content_type_detector.rb:34 | a token followed by a separator and anything else gives the token |
| FileCommandContentTypeDetector.JpegWithNewline | lib/file_validators/utils/file_command_content_type_detector.rb:34 | `image/jpeg\n` gives `image/jpeg` |
| ContentTypeDetector.TypeFromMimeMagic | lib/file_validators/utils/content_type_detector.rb:107-110 | nil when the path does not exist; ENOENT exactly when the file disappears before it is opened |
| ContentTypeDetector.TypeFromFileContents | lib/file_validators/utils/content_type_detector.rb:100-105 | ENOENT while sniffing degrades to `application/octet-stream` |
| ContentTypeDetector.MagicPreferred | lib/file_validators/utils/content_type_detector.rb:100-101 | a magic-bytes answer is the result, whatever the `file` command would say |
| ContentTypeDetector.FileCommandFallback | lib/file_validators/utils/content_type_detector.rb:100-115 | the `file` command decides when the path does not exist or magic sniffing finds nothing |
| ContentTypeDetector.CalculatedTypeMatches | lib/file_validators/utils/content_type_detector.rb:90-94 | every calculated match equals the sniffed type, and there is one exactly when the sniffed type is a candidate |
| ContentTypeDetector.Detect | lib/file_validators/utils/content_type_detector.rb:31-41 | a blank name gives the default; an existing empty file gives `inode/x-empty`; otherwise the result is the sniffed type, or the default when nothing was sniffed |
| ContentTypeDetector.DetectIgnoresCatalog | lib/file_validators/utils/content_type_detector.rb:36-39 | the catalogue never changes the detected type |
| ContentTypeDetector.EmptyFileBeforeSniffing | lib/file_validators/utils/content_type_detector.rb:34-35 | a zero-byte file is `inode/x-empty` whatever the sniffers say |
| ContentTypeDetector.VanishedGivesDefault | lib/file_validators/utils/content_type_detector.rb:102-104 | a file that vanishes before it is opened is detected as the default |
| ContentTypeDetector.MissingFileGivesDefault | lib/file_validators/utils/content_type_detector.rb:100-115 | a missing file whose `file` check fails gives the default |
| ContentTypeDetector.HasExtension | lib/file_validators/utils/content_type_detector.rb:57-66 | a nil path raises TypeError; a path of slashes raises NoMethodError on `first` |
| ContentTypeDetector.HasExtensionIff | lib/file_validators/utils/content_type_detector.rb:57-66 | `has_extension?` raises exactly for a path of slashes; it holds exactly when the extension is at least two characters long, or the last component is `.` followed by more |
| ContentTypeDetector.DotlessHasNoExtension | lib/file_validators/utils/content_type_detector.rb:57-66 | a last component without a dot has no extension |
| ContentTypeDetector.DotfileHasExtension | lib/file_validators/utils/content_type_detector.rb:63-66 | an extension-only name such as `.html` has an extension |
| ContentTypeDetector.StemDotExtHasExtension | lib/file_validators/utils/content_type_detector.rb:57-61 | `dir/stem.ext` has an extension |
| ContentTypeDetector.DetectedMediaType | lib/file_validators/utils/content_type_detector.rb:72-74 | the claimed content type up to its first `/` |
| ContentTypeDetector.MediaTypeBeforeSlash | lib/file_validators/utils/content_type_detector.rb:73 | with the first `/` at position k, the media type is the first k characters |
| ContentTypeDetector.Spoofed | lib/file_validators/utils/content_type_detector.rb:51-74 | no extension means not spoofed; an error from `has_extension?` propagates; with an extension and a nil content type, spoofed when the catalogue offers no candidate and NoMethodError otherwise |
| ContentTypeDetector.PossibleTypes | lib/file_validators/utils/content_type_detector.rb:96-98 | the content types registered for the path, one per registered type and in its order |
| ContentTypeDetector.SpoofedIff | lib/file_validators/utils/content_type_detector.rb:51-74 | with an extension, spoofed exactly when no candidate content type contains the claimed media type as a substring |
| ContentTypeDetector.DotlessNeverSpoofed | lib/file_validators/utils/content_type_detector.rb:51-61 | a last component without an extension is never spoofed |
| ContentTypeDetector.EmptyContentTypeNotSpoofed | lib/file_validators/utils/content_type_detector.rb:68-74 | an empty claimed type is not spoofed once the catalogue knows the name |
| ContentTypeDetector.UnknownExtensionSpoofed | lib/file_validators/utils/content_type_detector.rb:68-70 | an extension the catalogue does not know is spoofed, for any content type including nil |
| ContentTypeDetector.NilContentTypeRaises | lib/file_validators/utils/content_type_detector.rb:68-74 | a nil content type raises NoMethodError on `split` once the catalogue knows the extension |
| ContentTypeDetector.SpoofedOneCandidate | lib/file_validators/utils/content_type_detector.rb:68-74 | with one candidate, spoofed exactly when it does not contain the media type |
| ContentTypeDetector.ImageNotInTextHtml | lib/file_validators/utils/content_type_detector.rb:69 | `text/html` does not include `image` |
| ContentTypeDetector.ImageInImagePng | lib/file_validators/utils/content_type_detector.rb:69 | `image/png` includes `image` |
| ContentTypeDetector.HtmlClaimedAsJpegIsSpoofed | spec/lib/file_validators/utils/content_type_detector_spec.rb:31-49 | `cute.html` claimed as `image/jpeg` is spoofed |
| ContentTypeDetector.CuteFixtureHasExtension | spec/lib/file_validators/utils/content_type_detector_spec.rb:31-49 | the fixtures `cute.png` and `cute.html` have an extension |
| ContentTypeDetector.PngClaimedAsPngIsNotSpoofed | spec/lib/file_validators/utils/content_type_detector_spec.rb:31-49 | `cute.png` claimed as `image/png` is not spoofed |
| ContentTypeDetector.ExtensionOnlyNameIsSpoofed | spec/lib/file_validators/utils/content_type_detector_spec.rb:56-64 | `.html` claimed as `image/jpeg` is spoofed |
| ContentTypeDetector.NoExtensionExample | spec/lib/file_validators/utils/content_type_detector_spec.rb:51-54 | `fixtures/cute` is not spoofed, whatever the claimed type |
| MediaTypeSpoofDetector.HasExtensionIff | lib/file_validators/utils/media_type_spoof_detector.rb:26-30 | a name has an extension exactly when some `.` is followed later by a character other than `.` |
| MediaTypeSpoofDetector.SuppliedMediaTypes | lib/file_validators/utils/media_type_spoof_detector.rb:36-38 | the media types registered for the name, one per registered type and in its order |
| MediaTypeSpoofDetector.DotBeforeText | lib/file_validators/utils/media_type_spoof_detector.rb:26-30 | a `.` directly followed by another character is an extension |
| MediaTypeSpoofDetector.DetectedMediaType | lib/file_validators/utils/media_type_spoof_detector.rb:40-42 | nil exactly for a content type made only of slashes; otherwise the text before the first `/` |
| MediaTypeSpoofDetector.SpoofedIff | lib/file_validators/utils/media_type_spoof_detector.rb:20-42 | spoofed exactly when there is an extension and no supplied media type equals the prefix before `/` |
| MediaTypeSpoofDetector.DotlessNeverSpoofed | lib/file_validators/utils/media_type_spoof_detector.rb:20-30 | an empty or dotless name is never spoofed |
| MediaTypeSpoofDetector.UnknownExtensionSpoofed | lib/file_validators/utils/media_type_spoof_detector.rb:32-38 | an extension the catalogue does not know is spoofed |
| MediaTypeSpoofDetector.SpoofedOneSupplied | lib/file_validators/utils/media_type_spoof_detector.rb:32-42 | with one supplied media type, spoofed exactly when it differs from the detected one |
| MediaTypeSpoofDetector.MediaTypeBeforeSlash | lib/file_validators/utils/media_type_spoof_detector.rb:40-42 | with the first `/` at position k > 0, the media type is the first k characters |
| MediaTypeSpoofDetector.JpegNamedHtmlIsSpoofed | spec/lib/file_validators/utils/media_type_spoof_detector_spec.rb:4-6 | `image/jpeg` for `sample.html` is spoofed |
| MediaTypeSpoofDetector.PngNamedJpgIsNotSpoofed | spec/lib/file_validators/utils/media_type_spoof_detector_spec.rb:8-10 | `image/png` for `sample.jpg` is not spoofed |
| MediaTypeSpoofDetector.TextNamedTxtIsNotSpoofed | spec/lib/file_validators/utils/media_type_spoof_detector_spec.rb:12-14 | `text/plain` for `sample.txt` is not spoofed |
| MediaTypeSpoofDetector.NamelessOrPlainIsNotSpoofed | spec/lib/file_validators/utils/media_type_spoof_detector_spec.rb:16-22 | an empty name or `sample` is not spoofed |
| MediaTypeSpoofDetector.SpoofedOption | lib/file_validators/utils/media_type_spoof_detector.rb:20-42 | a present content type gives `Spoofed`'s verdict; a nil one raises NoMethodError exactly when the name has an extension the catalogue knows, and otherwise the answer is whether there is an extension |
| MediaTypeSpoofDetector.NilForPlainNameIsNotSpoofed | lib/file_validators/utils/media_type_spoof_detector.rb:20-30 | a nil content type for the dotless name `sample` is not spoofed and raises nothing |
| MimeTypeAnalyzer.ToolNames | lib/file_validators/mime_type_analyzer.rb:10 | the names of the tools, in order |
| MimeTypeAnalyzer.Lookup | lib/file_validators/mime_type_analyzer.rb:10 | finds a listed tool with that name, or none exists |
| MimeTypeAnalyzer.AllToolsSupported | lib/file_validators/mime_type_analyzer.rb:6 | every tool of the model is in `SUPPORTED_TOOLS` |
| MimeTypeAnalyzer.New | lib/file_validators/mime_type_analyzer.rb:9-13 | construction succeeds exactly for the seven tool names, giving the tool of that name; otherwise it raises Error with the unknown-analyzer message |
| MimeTypeAnalyzer.NewOfToolName | lib/file_validators/mime_type_analyzer.rb:9-13 | each tool's own name constructs that tool |
| MimeTypeAnalyzer.ToolNameInjective | lib/file_validators/mime_type_analyzer.rb:6 | no two supported tools share a name |
| MimeTypeAnalyzer.InvalidToolRejected | spec/lib/file_validators/mime_type_analyzer_spec.rb:7-9 | `:invalid` is rejected |
| MimeTypeAnalyzer.Remaining | lib/file_validators/mime_type_analyzer.rb:27 | what a reader sees is empty exactly at the end, and otherwise the bytes from the position on |
| MimeTypeAnalyzer.Rewind | lib/file_validators/mime_type_analyzer.rb:17 | rewinding puts the position at 0 and changes nothing else |
| MimeTypeAnalyzer.MagicWindow | lib/file_validators/mime_type_analyzer.rb:61 | `io.read(MAGIC_NUMBER)` is at most 256·1024 bytes, a prefix of what remains, and all of it when less remains |
| MimeTypeAnalyzer.ExtractFilename | lib/file_validators/mime_type_analyzer.rb:98-104 | `original_filename` is preferred, then the basename of `path`; nil with neither; a nil path raises TypeError |
| MimeTypeAnalyzer.Call | lib/file_validators/mime_type_analyzer.rb:15-20 | after a call the IO is at position 0 with its contents and readers unchanged; the call fails exactly when the tool fails |
| MimeTypeAnalyzer.CallIdempotent | lib/file_validators/mime_type_analyzer.rb:15-20 | calling again on the rewound IO gives the same answer and the same IO |
| MimeTypeAnalyzer.EofShortCircuits | lib/file_validators/mime_type_analyzer.rb:24-78 | `file`, `filemagic` and `marcel` answer nil at the end without running the tool |
| MimeTypeAnalyzer.FastImageWraps | lib/file_validators/mime_type_analyzer.rb:48-53 | `fastimage` answers `image/<kind>` when FastImage yields a kind, and nil otherwise |
| MimeTypeAnalyzer.FilenameOnly | lib/file_validators/mime_type_analyzer.rb:80-96 | `mime_types` and `mini_mime` depend only on the filename readers, and answer nil without them |
| MimeTypeAnalyzer.ContentOnly | lib/file_validators/mime_type_analyzer.rb:15-78 | `fastimage`, `file`, `filemagic`, `mimemagic` and `marcel` depend only on the bytes from the current position, not on the filename readers |
| MimeTypeAnalyzer.ContentToolAnswers | lib/file_validators/mime_type_analyzer.rb:65-78 | away from the end, `mimemagic` gives MimeMagic's answer and `marcel` gives Marcel's, on the remaining bytes, with the IO rewound |
| MimeTypeAnalyzer.MimeTypesOfEmptyNamedIO | spec/lib/file_validators/mime_type_analyzer_spec.rb:106-116 | an empty IO named `image.png` is `image/png` to `mime_types` |
| MimeTypeAnalyzer.FileOutcomes | lib/file_validators/mime_type_analyzer.rb:29-45 | ENOENT gives the not-installed Error, a nil status the spawn Error, a failed status the failure Error, and success the stripped output |
| MimeTypeAnalyzer.FileAnswerStripped | lib/file_validators/mime_type_analyzer.rb:42 | a `file` answer neither starts nor ends with whitespace |
| MimeTypeAnalyzer.FileMagicWindow | lib/file_validators/mime_type_analyzer.rb:55-63 | FileMagic is given at most 256·1024 bytes from the current position |
| FileSizeValidator.ErrorKeyInjective | lib/file_validators/validators/file_size_validator.rb:69 | different options have different `file_size_is_<option>` keys |
| FileSizeValidator.EveryCheck | lib/file_validators/validators/file_size_validator.rb:38-39 | every option is checked by one of the two `check_options` calls |
| FileSizeValidator.FirstRejected | lib/file_validators/validators/file_size_validator.rb:55-61 | the option reported is given and of the wrong kind, and no option before it in the list is; with none reported, every given option in the list is of the right kind |
| FileSizeValidator.FirstRejectedAppend | lib/file_validators/validators/file_size_validator.rb:38-39 | checking two lists one after the other reports what checking their concatenation reports |
| FileSizeValidator.CheckValidity | lib/file_validators/validators/file_size_validator.rb:31-40 | construction succeeds exactly when some size option is given and every one is of its kind (a range or proc for `in`, a number or proc for the rest); otherwise it raises the at-least-one message, or the message of the first wrong option in the order `less_than`, `less_than_or_equal_to`, `greater_than`, `greater_than_or_equal_to`, `in` |
| FileSizeValidator.OptionKindsAccepted | spec/lib/file_validators/validators/file_size_validator_spec.rb:239-257 | a number or proc for `less_than` and a range for `in` are accepted |
| FileSizeValidator.NumberForInRejected | lib/file_validators/validators/file_size_validator.rb:39 | a number for `in` raises `:in must be a range or a proc` |
| FileSizeValidator.RangeForLessThanRejected | lib/file_validators/validators/file_size_validator.rb:38 | a range for `less_than` raises `:less_than must be a numeric or a proc` |
| FileSizeValidator.EarlierWrongOptionReported | lib/file_validators/validators/file_size_validator.rb:38 | with ranges for both `less_than` and `greater_than`, the `less_than` message is raised |
| FileSizeValidator.ValidSize | lib/file_validators/validators/file_size_validator.rb:83-90 | a nil size is invalid; a range checks inclusive (or end-exclusive) membership for `in` and is an error for the comparisons; otherwise the size is compared with the bound |
| FileSizeValidator.Strictness | lib/file_validators/validators/file_size_validator.rb:88 | `less_than` and `greater_than` reject equality; the `_or_equal_to` forms accept it |
| FileSizeValidator.InclusiveRange | spec/lib/file_validators/validators/file_size_validator_spec.rb:30-34 | with `in: 5..10 KB`, 7 KB and both ends pass, while 4 KB and 11 KB fail |
| FileSizeValidator.NilAndZeroSizes | lib/file_validators/validators/file_size_validator.rb:84 | a nil size fails every option; size 0 passes `less_than: 3 KB` |
| FileSizeValidator.ValueByteSize | lib/file_validators/validators/file_size_validator.rb:75-81 | `byte_size` when the upload responds to it, otherwise `size` |
| FileSizeValidator.ByteSizePreferred | lib/file_validators/validators/file_size_validator.rb:75-81 | an upload with both reports its `byte_size` |
| FileSizeValidator.StructWithoutSize | lib/file_validators/validators/file_size_validator.rb:75-84 | an OpenStruct without size fields has a nil size, which is invalid |
| FileSizeValidator.AnyInvalid | lib/file_validators/validators/file_size_validator.rb:65 | no violation exactly when every upload is valid; a violation names an invalid upload; an error comes from some upload |
| FileSizeValidator.CheckErrors | lib/file_validators/validators/file_size_validator.rb:63-73 | exactly one `file_size_is_<option>` error when some upload violates the option, none otherwise |
| FileSizeValidator.OptionErrors | lib/file_validators/validators/file_size_validator.rb:26-28 | an option that is not given adds nothing |
| FileSizeValidator.CheckAllCounts | lib/file_validators/validators/file_size_validator.rb:26-28 | each option's key occurs once if the option is given and violated, and zero times otherwise, however many uploads violate it |
| FileSizeValidator.CheckAllKeys | lib/file_validators/validators/file_size_validator.rb:26-28 | every error is on the validated attribute, under the key of a given option |
| FileSizeValidator.ParseValues | lib/file_validators/validators/file_size_validator.rb:44-53 | a blank value gives no uploads; a parser error only for a present string that is not JSON; every upload returned is present. Of the parsed value (a string's JSON, else the value itself): a blank one gives no uploads; after a hash becomes an OpenStruct, a value that does not respond to `to_ary` is the one upload unless it is blank; one that does gives exactly the present elements of an array answer, is the one upload (unless blank) for a nil or false answer, and raises NoMethodError on `reject` for any other answer |
| FileSizeValidator.ArrayGivesPresentElements | lib/file_validators/validators/file_size_validator.rb:47-52 | an array, given or as JSON, gives exactly its present elements |
| FileSizeValidator.EmptyInputsGiveNothing | lib/file_validators/validators/file_size_validator.rb:44-53 | nil, `{}`, `[]` and `""`, given directly or as JSON text, give no uploads |
| FileSizeValidator.HashIsOneUpload | lib/file_validators/validators/file_size_validator.rb:50-52 | a present hash without a `to_ary` key is one upload, its OpenStruct, unless that struct is blank; a `to_ary` key holding an array gives that array's present elements, a nil or false one leaves the struct as the upload, and any other raises NoMethodError |
| FileSizeValidator.EmptyToAryGivesNothing | lib/file_validators/validators/file_size_validator.rb:44-53 | the JSON text `{"to_ary": []}` names no uploads, so validation adds no error |
| FileSizeValidator.ValidateEach | lib/file_validators/validators/file_size_validator.rb:16-29 | malformed JSON adds only `:invalid`; no uploads adds nothing; an exception in `parse_values` other than the parser error propagates |
| FileSizeValidator.ValidateEachCounts | lib/file_validators/validators/file_size_validator.rb:16-29 | a completed validation adds exactly one error per given, violated option and nothing else |
| FileSizeValidator.TwoViolationsOneError | spec/integration/file_size_validator_integration_spec.rb:287-299 | two uploads that both fail `greater_than` give one error |
| FileContentTypeValidator.CheckValidity | lib/file_validators/validators/file_content_type_validator.rb:22-32 | construction succeeds exactly when `allow` or `exclude` is given and each given one is a string, array, regexp or proc; otherwise it raises the at-least-one message, or the message of the first wrong option; any other object (nil, a number, a hash, ...) is rejected |
| FileContentTypeValidator.AnyMatchesAppend | lib/file_validators/validators/file_content_type_validator.rb:44-54 | a concatenation has a match exactly when one of its parts has |
| FileContentTypeValidator.FlattenMatches | lib/file_validators/validators/file_content_type_validator.rb:36-38 | some element of `flatten.compact` matches exactly when the nested option value matches somewhere |
| FileContentTypeValidator.FlattenOneMatches | lib/file_validators/validators/file_content_type_validator.rb:36-38 | what one value contributes to `flatten.compact` matches exactly when that value matches |
| FileContentTypeValidator.FlattenAppend | lib/file_validators/validators/file_content_type_validator.rb:37 | flattening keeps the order of the parts |
| FileContentTypeValidator.FlattenDropsNils | lib/file_validators/validators/file_content_type_validator.rb:37 | `compact` removes every nil |
| FileContentTypeValidator.WhitelistErrors | lib/file_validators/validators/file_content_type_validator.rb:44-48 | an `allowed_file_content_types` error exactly when the allowed list is non-empty and nothing in it matches |
| FileContentTypeValidator.BlacklistErrors | lib/file_validators/validators/file_content_type_validator.rb:50-54 | an `excluded_file_content_types` error exactly when something in the excluded list matches |
| FileContentTypeValidator.ValidateEach | lib/file_validators/validators/file_content_type_validator.rb:11-20 | a blank value adds nothing; an upload without `content_type` raises NoMethodError |
| FileContentTypeValidator.ValidateEachOf | lib/file_validators/validators/file_content_type_validator.rb:13-18 | a completed validation is the whitelist result followed by the blacklist result |
| FileContentTypeValidator.OptionContentTypesMatch | lib/file_validators/validators/file_content_type_validator.rb:36-42 | the option's types match exactly when the option value (a proc's result, for a proc) matches; an absent option matches nothing |
| FileContentTypeValidator.ValidateEachIff | lib/file_validators/validators/file_content_type_validator.rb:11-20 | the allowed error appears exactly when `allow` yields types and none matches; the excluded error appears exactly when an `exclude` type matches; nothing else appears |
| FileContentTypeValidator.ExcludeWins | lib/file_validators/validators/file_content_type_validator.rb:17-18 | a type both allowed and excluded is reported as excluded only |
| FileContentTypeValidator.AbsentOptionsAllowAll | lib/file_validators/validators/file_content_type_validator.rb:36-54 | without either option nothing is reported |
| FileContentTypeValidator.NilOptionRestrictsNothing | lib/file_validators/validators/file_content_type_validator.rb:37 | a nil option, an array of nils, or a proc returning nil gives no types |
| FileContentTypeValidator.ExactStringCompare | spec/lib/file_validators/validators/file_content_type_validator_spec.rb:38-41 | `allow: 'image/png'` rejects `image/jpeg` |
| FileContentTypeValidator.NestedListAllows | lib/file_validators/validators/file_content_type_validator.rb:36-48 | a type inside a nested array is allowed |
| FileContentTypeValidator.RegexpAllows | spec/lib/file_validators/validators/file_content_type_validator_spec.rb:21-24 | a regexp allows, or excludes, the types it matches |
| FileContentTypeValidator.ProcActsAsResult | lib/file_validators/validators/file_content_type_validator.rb:40-42 | a proc option acts as the value it returns for the record |

## Left out

- Subprocess plumbing (Open3, Cocaine, copying stdin, EPIPE, `$stderr.print`, `puts`): only the outcome of running `file` is modelled.
- The internals of MimeMagic, FastImage, FileMagic, Marcel, MIME::Types, MiniMime, JSON and the regular-expression engine: each is a function parameter.
- The real filesystem: it is a map from existing paths to contents, plus the paths that vanish between the existence check and the open.
- Memoisation with `||=`: each value is computed once, so it is the same value.
- Messages, `human_size`, `detect_error_options`, `filtered_options`, `mark_invalid`'s `types:` list and I18n: errors are (attribute, key) pairs only. The message-interpolation code is at lib/file_validators/validators/file_size_validator.rb:92-125 and file_content_type_validator.rb:56-58.
- ActiveModel wiring: `EachValidator`, `helper_method_name`, the `validates_*` helpers, and the gem bootstrap in lib/file_validators.rb.
- Float sizes and float bounds: sizes and numeric bounds are integers.
- Options other than the size checks (`message`, `if`, `locale`, ...): they do not take part in the decisions.
- The `:mode` and `:tool` options and the content-type cases of the integration specs that the validator has no code for.
- The registry tiers described only in the class comment of `ContentTypeDetector`.
- `MimeTypeAnalyzer.New` takes the tool's name. The unknown-analyzer message shows it as a symbol's `inspect` would (`:name`); a string tool name, which `inspect` would quote, is not modelled.
- `MimeTypeAnalyzer` libraries that read the IO (FastImage, MimeMagic, Marcel, the `file` process) are given the bytes from the current position.
- `MediaTypeSpoofDetector`: a nil file name, on which `split` raises NoMethodError, is not modelled. A nil content type is modelled by `SpoofedOption`: it raises only when the name has an extension the catalogue knows.
- Proc options are modelled by the value they return for the record. A proc inside an `allow`/`exclude` array is modelled by the truthiness of what it returns for a content type.
- FileSizeValidator.ValidSize: one `ComparisonFailed` error stands for the ArgumentError or NoMethodError Ruby raises when a non-integer size is ordered against a bound, because the exception class does not change which errors are recorded.
- RubyValues.Blank: an OpenStruct key named `blank?` answers `blank?`, as in Ruby 3.0 and later, where OpenStruct defines a method per key; older versions keep ActiveSupport's `blank?`.
- FileSizeValidator.ParseValues: a truthy `to_ary` answer that is not an array is modelled as the NoMethodError that `reject` raises on it. For an answer that has its own `reject` (a Hash, an OpenStruct), what happens next is not modelled.
- FileContentTypeValidator.Flatten: `flatten` also unwraps an option element that answers `to_ary`; the model flattens only arrays.
- RubyStrings.Strip removes NUL at both ends, as recent Ruby versions do; older versions keep leading NULs.
- RubyPaths.ExtName follows `File.extname` of Ruby 2.7 and later, where a trailing dot gives `.`.

=== FILE: content_type_detector.dfy ===
/**
 * Utils::ContentTypeDetector: the content type of a file on disk, by a
 * fixed fallback chain, and the spoof check that compares a claimed content
 * type with the types registered for the path's extension.
 *
 * The filesystem, the magic-byte sniffer (MimeMagic), the `file` command and
 * the MIME::Types catalogue are parameters.
 */
module ContentTypeDetector {
  import opened Wrappers
  import opened Bytes
  import opened RubyStrings
  import opened RubyPaths
  import opened RubyValues
  import opened MediaTypes
  import FileCommand = FileCommandContentTypeDetector

  /**
   * The files that exist, with their contents. A path in `vanishing` exists
   * when its existence is checked but is gone when it is opened (the open raises ENOENT).
   */
  datatype FileSystem = FileSystem(files: map<string, Bytes>, vanishing: set<string>)

  /** `MimeMagic.by_magic(io).try(:type)` on the contents, and what `file` reports for the path. */
  datatype Sniffers = Sniffers(magic: Bytes -> Option<string>, fileCommand: string -> FileCommand.CommandOutcome)

  /** Magic sniffing either returns a result or runs into ENOENT. */
  datatype Sniffed = Sniffed(t: Option<string>) | Vanished

  /** `blank_name?`: no path, or the empty path. */
  predicate BlankName(path: Option<string>) {
    path.None? || path.value == ""
  }

  /** `empty_file?`: the path exists and has size zero. */
  predicate EmptyFile(path: string, fs: FileSystem) {
    path in fs.files && |fs.files[path]| == 0
  }

  /** `type_from_mime_magic`: nil when the path does not exist, otherwise the sniffer's answer on the contents. */
  function TypeFromMimeMagic(path: string, fs: FileSystem, sn: Sniffers): (r: Sniffed)
    ensures path !in fs.files ==> r == Sniffed(None)
    ensures r.Vanished? <==> path in fs.files && path in fs.vanishing
  {
    if path !in fs.files then Sniffed(None)
    else if path in fs.vanishing then Vanished
    else Sniffed(sn.magic(fs.files[path]))
  }

  /**
   * `type_from_file_contents`: the magic result, else the `file` command's
   * result; ENOENT degrades to the default.
   */
  function TypeFromFileContents(path: string, fs: FileSystem, sn: Sniffers): (r: Option<string>)
    ensures path in fs.files && path in fs.vanishing ==> r == Some(SensibleDefault)
  {
    match TypeFromMimeMagic(path, fs, sn)
    case Vanished => Some(SensibleDefault)
    case Sniffed(Some(t)) => Some(t)
    case Sniffed(None) => FileCommand.Detect(sn.fileCommand(path))
  }

  /** A magic-bytes answer wins: the `file` command is then never consulted. */
  lemma MagicPreferred(path: string, fs: FileSystem, sn: Sniffers, t: string)
    requires path in fs.files && path !in fs.vanishing && sn.magic(fs.files[path]) == Some(t)
    ensures TypeFromFileContents(path, fs, sn) == Some(t)
    ensures forall other :: TypeFromFileContents(path, fs, Sniffers(sn.magic, other)) == Some(t)
  {
  }

  /** The `file` command decides when the path does not exist or magic sniffing finds nothing. */
  lemma FileCommandFallback(path: string, fs: FileSystem, sn: Sniffers)
    requires path !in fs.files || (path !in fs.vanishing && sn.magic(fs.files[path]).None?)
    ensures TypeFromFileContents(path, fs, sn) == FileCommand.Detect(sn.fileCommand(path))
  {
  }

  /**
   * `calculated_type_matches`: the candidates equal to the sniffed type, in
   * order; so every match is the sniffed type itself.
   */
  function CalculatedTypeMatches(candidates: seq<string>, sniffed: Option<string>): (r: seq<string>)
    ensures forall i :: 0 <= i < |r| ==> sniffed == Some(r[i])
    ensures |r| > 0 <==> sniffed.Some? && sniffed.value in candidates
  {
    if |candidates| == 0 then []
    else if sniffed == Some(candidates[0]) then [candidates[0]] + CalculatedTypeMatches(candidates[1..], sniffed)
    else CalculatedTypeMatches(candidates[1..], sniffed)
  }

  /** `possible_types`: the content types the catalogue registers for the path. */
  function PossibleTypes(path: string, catalog: Catalog): (r: seq<string>)
    ensures |r| == |catalog(path)|
    ensures forall i :: 0 <= i < |r| ==> r[i] == catalog(path)[i].contentType
  {
    ContentTypes(catalog(path))
  }

  /**
   * `detect`: the default for a blank path, `inode/x-empty` for an existing
   * empty file, otherwise the sniffed type (a catalogue match can only be the
   * sniffed type) or the default when sniffing finds nothing.
   */
  function Detect(path: Option<string>, fs: FileSystem, catalog: Catalog, sn: Sniffers): (r: string)
    ensures BlankName(path) ==> r == SensibleDefault
    ensures !BlankName(path) && EmptyFile(path.value, fs) ==> r == EmptyType
    ensures !BlankName(path) && !EmptyFile(path.value, fs) ==>
              r == TypeFromFileContents(path.value, fs, sn).GetOr(SensibleDefault)
  {
    if BlankName(path) then SensibleDefault
    else if EmptyFile(path.value, fs) then EmptyType
    else
      var sniffed := TypeFromFileContents(path.value, fs, sn);
      var matches := CalculatedTypeMatches(PossibleTypes(path.value, catalog), sniffed);
      if |matches| > 0 then matches[0] else sniffed.GetOr(SensibleDefault)
  }

  /** The catalogue never changes what `detect` returns. */
  lemma DetectIgnoresCatalog(path: Option<string>, fs: FileSystem, c1: Catalog, c2: Catalog, sn: Sniffers)
    ensures Detect(path, fs, c1, sn) == Detect(path, fs, c2, sn)
  {
  }

  /** A zero-byte file is `inode/x-empty` whatever the sniffers would say. */
  lemma EmptyFileBeforeSniffing(path: string, fs: FileSystem, catalog: Catalog, sn1: Sniffers, sn2: Sniffers)
    requires path != "" && EmptyFile(path, fs)
    ensures Detect(Some(path), fs, catalog, sn1) == EmptyType
    ensures Detect(Some(path), fs, catalog, sn1) == Detect(Some(path), fs, catalog, sn2)
  {
  }

  /** ENOENT on opening a file that was there a moment ago degrades to the default. */
  lemma VanishedGivesDefault(path: string, fs: FileSystem, catalog: Catalog, sn: Sniffers)
    requires path in fs.files && path in fs.vanishing && |fs.files[path]| > 0
    ensures Detect(Some(path), fs, catalog, sn) == SensibleDefault
  {
  }

  /** A missing file whose `file` check fails or reports a parenthesised error is the default. */
  lemma MissingFileGivesDefault(path: string, fs: FileSystem, catalog: Catalog, sn: Sniffers)
    requires path != "" && path !in fs.files
    requires sn.fileCommand(path) == FileCommand.CommandLineError
          || sn.fileCommand(path) == FileCommand.Output(None)
          || (sn.fileCommand(path).Output? && sn.fileCommand(path).text.Some?
              && FileCommand.HasParenGroupSpec(sn.fileCommand(path).text.value))
    ensures Detect(Some(path), fs, catalog, sn) == SensibleDefault
  {
    if sn.fileCommand(path).Output? && sn.fileCommand(path).text.Some?
       && FileCommand.HasParenGroupSpec(sn.fileCommand(path).text.value) {
      FileCommand.ParenthesisedGivesDefault(sn.fileCommand(path).text.value);
    } else {
      FileCommand.FailureGivesDefault(sn.fileCommand(path));
    }
  }

  /**
   * `has_extension?`: `File.extname(path).split('.').length > 1`, or else a
   * last component that starts with `.` and is longer than one character.
   * A nil path raises TypeError in `File.extname`; a path with no component
   * (only slashes) raises NoMethodError on nil in the second test.
   */
  function HasExtension(path: Option<string>): (r: Result<bool, RubyError>)
    ensures path.None? ==> r == Err(TypeError)
  {
    match path
    case None => Err(TypeError)
    case Some(p) =>
      if |Split(ExtName(p), '.')| > 1 then Ok(true)
      else match LastComponent(p)
        case None => Err(NoMethodError("first"))
        case Some(c) => Ok(c[0] == '.' && |c| > 1)
  }

  /** The cases of `has_extension?` in terms of the last path component. */
  lemma HasExtensionIff(p: string)
    ensures HasExtension(Some(p)).Err? <==> AllIn(p, {'/'})
    ensures HasExtension(Some(p)) == Ok(true) <==>
              LastComponent(p).Some? &&
              (|ExtName(p)| >= 2 || (LastComponent(p).value[0] == '.' && |LastComponent(p).value| > 1))
  {
    SplitExtName(p);
  }

  /** A last component without a dot means no extension. */
  lemma DotlessHasNoExtension(p: string, c: string)
    requires LastComponent(p) == Some(c) && NoneIn(c, {'.'})
    ensures HasExtension(Some(p)) == Ok(false)
  {
    ExtNameOfDotless(p, c);
    HasExtensionIff(p);
    assert c[0] != '.' by {
      assert c[0] !in {'.'};
    }
  }

  /** An extension-only name such as `.html` has an extension. */
  lemma DotfileHasExtension(p: string, c: string)
    requires LastComponent(p) == Some(c) && c[0] == '.' && |c| > 1
    ensures HasExtension(Some(p)) == Ok(true)
  {
    HasExtensionIff(p);
  }

  /** `detected_media_type`: the claimed content type up to its first `/`, `""` when that is nothing. */
  function DetectedMediaType(contentType: string): (r: string)
    ensures r == contentType[..FirstIndex(contentType, {'/'})]
  {
    SplitFirstOrEmpty(contentType, '/');
    First(Split(contentType, '/')).GetOr("")
  }

  /** `media_type_mismatch?`: no candidate content type contains the detected media type. */
  predicate MediaTypeMismatch(contentType: string, candidates: seq<string>) {
    forall i :: 0 <= i < |candidates| ==> !Contains(candidates[i], DetectedMediaType(contentType))
  }

  /**
   * `spoofed?`: an extension and a media-type mismatch. The content type is
   * only looked at when there is an extension and the catalogue offers at
   * least one candidate (`none?` on no candidates never runs its block); a nil
   * content type then raises NoMethodError on `split`.
   */
  function Spoofed(path: Option<string>, contentType: Option<string>, catalog: Catalog): (r: Result<bool, RubyError>)
    ensures HasExtension(path) == Ok(false) ==> r == Ok(false)
    ensures HasExtension(path).Err? ==> r == Err(HasExtension(path).error)
    ensures HasExtension(path) == Ok(true) && contentType.None? ==>
              r == if |PossibleTypes(path.value, catalog)| == 0 then Ok(true) else Err(NoMethodError("split"))
  {
    var ext :- HasExtension(path);
    if !ext then Ok(false)
    else if |PossibleTypes(path.value, catalog)| == 0 then Ok(true)
    else match contentType
      case None => Err(NoMethodError("split"))
      case Some(ct) => Ok(MediaTypeMismatch(ct, PossibleTypes(path.value, catalog)))
  }

  /**
   * With an extension, the verdict is "spoofed" exactly when no candidate
   * contains the text before the first `/` of the content type.
   */
  lemma SpoofedIff(p: string, ct: string, catalog: Catalog)
    requires HasExtension(Some(p)) == Ok(true)
    ensures Spoofed(Some(p), Some(ct), catalog) == Ok(true) <==>
              forall t :: t in PossibleTypes(p, catalog) ==> !Contains(t, ct[..FirstIndex(ct, {'/'})])
  {
    SpoofedIsMismatch(p, ct, catalog);
    MismatchIff(ct, PossibleTypes(p, catalog));
  }

  /** With an extension and a present content type, the verdict is `media_type_mismatch?`. */
  lemma SpoofedIsMismatch(p: string, ct: string, catalog: Catalog)
    requires HasExtension(Some(p)) == Ok(true)
    ensures Spoofed(Some(p), Some(ct), catalog) == Ok(MediaTypeMismatch(ct, PossibleTypes(p, catalog)))
  {
  }

  /** `none?` over the candidates, stated by membership. */
  lemma MismatchIff(ct: string, cands: seq<string>)
    ensures MediaTypeMismatch(ct, cands) <==> forall t :: t in cands ==> !Contains(t, ct[..FirstIndex(ct, {'/'})])
  {
    if forall t :: t in cands ==> !Contains(t, ct[..FirstIndex(ct, {'/'})]) {
      assert forall i :: 0 <= i < |cands| ==> cands[i] in cands;
    }
  }

  /** No extension in the last component: never spoofed, whatever the content type. */
  lemma DotlessNeverSpoofed(p: string, c: string, ct: Option<string>, catalog: Catalog)
    requires LastComponent(p) == Some(c) && NoneIn(c, {'.'})
    ensures Spoofed(Some(p), ct, catalog) == Ok(false)
  {
    DotlessHasNoExtension(p, c);
  }

  /** An empty content type has media type `""`, which every string contains: not spoofed once the catalogue knows the extension. */
  lemma EmptyContentTypeNotSpoofed(p: string, catalog: Catalog)
    requires HasExtension(Some(p)) == Ok(true) && |catalog(p)| > 0
    ensures Spoofed(Some(p), Some(""), catalog) == Ok(false)
  {
    var cands := PossibleTypes(p, catalog);
    ContainsEmpty(cands[0]);
    assert DetectedMediaType("") == "";
  }

  /** An extension the catalogue does not know is always reported as spoofed, whatever the content type, nil included. */
  lemma UnknownExtensionSpoofed(p: string, ct: Option<string>, catalog: Catalog)
    requires HasExtension(Some(p)) == Ok(true) && catalog(p) == []
    ensures Spoofed(Some(p), ct, catalog) == Ok(true)
  {
  }

  /** A nil content type raises NoMethodError once the catalogue knows the extension. */
  lemma NilContentTypeRaises(p: string, catalog: Catalog)
    requires HasExtension(Some(p)) == Ok(true) && |catalog(p)| > 0
    ensures Spoofed(Some(p), None, catalog) == Err(NoMethodError("split"))
  {
  }

  /** The text `image` does not occur in `text/html`, which has no `i`. */
  lemma ImageNotInTextHtml(t: string)
    requires t == "text/html"
    ensures !Contains(t, "image")
  {
    ContainsIff(t, "image");
    forall i | 0 <= i && i + 5 <= |t|
      ensures !OccursAt(t, "image", i)
    {
      assert t[i] != 'i';
    }
  }

  /** `dir/stem.ext` has an extension. */
  lemma StemDotExtHasExtension(dir: string, stem: string, ext: string)
    requires stem != "" && stem[0] != '.' && NoneIn(stem, {'/'})
    requires ext != "" && NoneIn(ext, {'.'}) && NoneIn(ext, {'/'})
    ensures HasExtension(Some(dir + "/" + (stem + "." + ext))) == Ok(true)
  {
    var p := dir + "/" + (stem + "." + ext);
    var c := stem + "." + ext;
    assert forall i :: 0 <= i < |c| ==> c[i] != '/' by {
      assert forall i :: 0 <= i < |stem| ==> c[i] == stem[i];
      assert forall i :: |stem| < i < |c| ==> c[i] == ext[i - |stem| - 1];
    }
    LastComponentAfter(dir, c);
    ExtNameOf(p, stem, ext);
    SplitExtName(p);
  }

  /** The media type is the text before the first `/`. */
  lemma MediaTypeBeforeSlash(ct: string, k: nat)
    requires k < |ct| && ct[k] == '/' && forall i :: 0 <= i < k ==> ct[i] != '/'
    ensures DetectedMediaType(ct) == ct[..k]
  {
    assert FirstIndex(ct, {'/'}) == k;
  }

  /** With an extension and a single candidate, spoofed means the candidate lacks the media type. */
  lemma SpoofedOneCandidate(p: string, ct: string, catalog: Catalog, t: string)
    requires HasExtension(Some(p)) == Ok(true) && PossibleTypes(p, catalog) == [t]
    ensures Spoofed(Some(p), Some(ct), catalog) == Ok(!Contains(t, DetectedMediaType(ct)))
  {
  }

  /** `image/png` starts with `image`. */
  lemma ImageInImagePng()
    ensures Contains("image/png", "image")
  {
    var t := "image/png";
    ContainsIff(t, "image");
    assert OccursAt(t, "image", 0);
  }

  /** The fixtures `cute.html` and `cute.png` have an extension. */
  lemma CuteFixtureHasExtension(p: string)
    requires p == "fixtures/cute.html" || p == "fixtures/cute.png"
    ensures HasExtension(Some(p)) == Ok(true)
  {
    if p == "fixtures/cute.html" {
      assert p == "fixtures" + "/" + ("cute" + "." + "html");
      StemDotExtHasExtension("fixtures", "cute", "html");
    } else {
      assert p == "fixtures" + "/" + ("cute" + "." + "png");
      StemDotExtHasExtension("fixtures", "cute", "png");
    }
  }

  /** `fixtures/cute.html` claimed as `image/jpeg`, with the catalogue giving `text/html`: spoofed. */
  lemma HtmlClaimedAsJpegIsSpoofed(p: string, ct: string, catalog: Catalog)
    requires p == "fixtures/cute.html" && ct == "image/jpeg"
    requires catalog(p) == [MimeType("text/html", "text")]
    ensures Spoofed(Some(p), Some(ct), catalog) == Ok(true)
  {
    ImageMediaType(ct);
    CuteFixtureHasExtension(p);
    SingleCandidate(p, catalog, "text/html", "text");
    ImageNotInTextHtml("text/html");
    SpoofedOneCandidate(p, ct, catalog, "text/html");
  }

  /** `image/png` and `image/jpeg` both have the media type `image`. */
  lemma ImageMediaType(ct: string)
    requires ct == "image/png" || ct == "image/jpeg"
    ensures DetectedMediaType(ct) == "image"
  {
    MediaTypeBeforeSlash(ct, 5);
  }

  /** A catalogue entry list with one type offers exactly that type. */
  lemma SingleCandidate(p: string, catalog: Catalog, t: string, media: string)
    requires catalog(p) == [MimeType(t, media)]
    ensures PossibleTypes(p, catalog) == [t]
  {
  }

  /** `fixtures/cute.png` claimed as `image/png`, with the catalogue giving `image/png`: not spoofed. */
  lemma PngClaimedAsPngIsNotSpoofed(p: string, ct: string, catalog: Catalog)
    requires p == "fixtures/cute.png" && ct == "image/png"
    requires catalog(p) == [MimeType("image/png", "image")]
    ensures Spoofed(Some(p), Some(ct), catalog) == Ok(false)
  {
    ImageMediaType(ct);
    CuteFixtureHasExtension(p);
    SingleCandidate(p, catalog, "image/png", "image");
    ImageInImagePng();
    SpoofedOneCandidate(p, ct, catalog, "image/png");
  }

  /** `fixtures/.html` is a dotfile name, which counts as having an extension. */
  lemma DotHtmlHasExtension(p: string)
    requires p == "fixtures/.html"
    ensures HasExtension(Some(p)) == Ok(true)
  {
    assert p == "fixtures" + "/" + ".html";
    LastComponentAfter("fixtures", ".html");
    DotfileHasExtension(p, ".html");
  }

  /** `fixtures/.html` claimed as `image/jpeg`: the extension-only name counts, so it is spoofed. */
  lemma ExtensionOnlyNameIsSpoofed(p: string, ct: string, catalog: Catalog)
    requires p == "fixtures/.html" && ct == "image/jpeg"
    requires catalog(p) == [MimeType("text/html", "text")]
    ensures Spoofed(Some(p), Some(ct), catalog) == Ok(true)
  {
    ImageMediaType(ct);
    DotHtmlHasExtension(p);
    SingleCandidate(p, catalog, "text/html", "text");
    ImageNotInTextHtml("text/html");
    SpoofedOneCandidate(p, ct, catalog, "text/html");
  }

  /** `fixtures/cute` has no extension: not spoofed whatever it is claimed to be. */
  lemma NoExtensionExample(p: string, ct: Option<string>, catalog: Catalog)
    requires p == "fixtures/cute"
    ensures Spoofed(Some(p), ct, catalog) == Ok(false)
  {
    assert p == "fixtures" + "/" + "cute";
    LastComponentAfter("fixtures", "cute");
    DotlessNeverSpoofed(p, "cute", ct, catalog);
  }
}

=== FILE: file_command_content_type_detector.dfy ===
/**
 * FileCommandContentTypeDetector: runs `file -b --mime-type <path>` and
 * normalises its output to one media-type token. The subprocess is not part
 * of this model; only its outcome is.
 */
module FileCommandContentTypeDetector {
  import opened Wrappers
  import opened RubyStrings
  import opened MediaTypes

  /** What running the `file` command produced: its standard output (possibly nil), or a command-line error. */
  datatype CommandOutcome = Output(text: Option<string>) | CommandLineError

  /** The characters of the regular expression `/[:;\s]+/`: colon, semicolon and Ruby's `\s`. */
  const Separators: set<char> := {':', ';', ' ', '\t', '\n', '\U{B}', '\U{C}', '\r'}

  /**
   * `s` matches `/\(.*?\)/`: an opening parenthesis followed by a closing one
   * with no line feed in between (Ruby's `.` does not match a line feed).
   */
  ghost predicate ParenGroupAt(s: string, i: int, j: int) {
    0 <= i < j < |s| && s[i] == '(' && s[j] == ')' && forall k :: i < k < j ==> s[k] != '\n'
  }

  ghost predicate HasParenGroupSpec(s: string) {
    exists i, j :: ParenGroupAt(s, i, j)
  }

  /** `s` has a `)` reachable from its start without crossing a line feed. */
  ghost predicate ClosesAt(s: string, j: int) {
    0 <= j < |s| && s[j] == ')' && forall k :: 0 <= k < j ==> s[k] != '\n'
  }

  /** Left-to-right scan; `open` records that a `(` was seen since the last line feed. */
  function ParenScan(s: string, open: bool): bool
    decreases |s|
  {
    if |s| == 0 then false
    else if open && s[0] == ')' then true
    else ParenScan(s[1..], if s[0] == '(' then true else if s[0] == '\n' then false else open)
  }

  /** `s.match(/\(.*?\)/)` is truthy. */
  predicate HasParenGroup(s: string) {
    ParenScan(s, false)
  }

  lemma GroupShift(s: string)
    requires |s| > 0
    ensures HasParenGroupSpec(s) <==> HasParenGroupSpec(s[1..]) || (s[0] == '(' && exists j :: ClosesAt(s[1..], j))
  {
    if HasParenGroupSpec(s) {
      var i, j :| ParenGroupAt(s, i, j);
      if i == 0 {
        assert ClosesAt(s[1..], j - 1);
      } else {
        assert ParenGroupAt(s[1..], i - 1, j - 1);
      }
    }
    if HasParenGroupSpec(s[1..]) {
      var i, j :| ParenGroupAt(s[1..], i, j);
      assert ParenGroupAt(s, i + 1, j + 1);
    }
    if s[0] == '(' && exists j :: ClosesAt(s[1..], j) {
      var j :| ClosesAt(s[1..], j);
      assert ParenGroupAt(s, 0, j + 1);
    }
  }

  lemma ClosesShift(s: string)
    requires |s| > 0 && s[0] != ')'
    ensures (exists j :: ClosesAt(s, j)) <==> s[0] != '\n' && exists j :: ClosesAt(s[1..], j)
  {
    if exists j :: ClosesAt(s, j) {
      var j :| ClosesAt(s, j);
      assert j > 0;
      assert ClosesAt(s[1..], j - 1);
    }
    if s[0] != '\n' && exists j :: ClosesAt(s[1..], j) {
      var j :| ClosesAt(s[1..], j);
      assert ClosesAt(s, j + 1);
    }
  }

  /** The scan decides the regular expression: a group later in `s`, or a close for an already open `(`. */
  lemma {:induction false} ParenScanCorrect(s: string, open: bool)
    ensures ParenScan(s, open) <==> HasParenGroupSpec(s) || (open && exists j :: ClosesAt(s, j))
    decreases |s|
  {
    if |s| == 0 {
    } else if open && s[0] == ')' {
      assert ClosesAt(s, 0);
    } else {
      var open' := if s[0] == '(' then true else if s[0] == '\n' then false else open;
      ParenScanCorrect(s[1..], open');
      GroupShift(s);
      if s[0] != ')' {
        ClosesShift(s);
      }
    }
  }

  /** `HasParenGroup` is exactly the regular-expression match. */
  lemma HasParenGroupIff(s: string)
    ensures HasParenGroup(s) <==> HasParenGroupSpec(s)
  {
    ParenScanCorrect(s, false);
  }

  /** The output after its nil and parenthesised forms are replaced by the default. */
  function RawType(outcome: CommandOutcome): (r: string)
    ensures outcome.CommandLineError? || outcome.text.None? ==> r == SensibleDefault
    ensures outcome.Output? && outcome.text.Some? && HasParenGroupSpec(outcome.text.value) ==> r == SensibleDefault
    ensures outcome.Output? && outcome.text.Some? && !HasParenGroupSpec(outcome.text.value) ==> r == outcome.text.value
  {
    match outcome
    case CommandLineError => SensibleDefault
    case Output(None) => SensibleDefault
    case Output(Some(t)) =>
      HasParenGroupIff(t);
      if HasParenGroup(t) then SensibleDefault else t
  }

  /**
   * `type.split(/[:;\s]+/)[0]`: nil when the output is made only of
   * separators, otherwise the text before the first separator.
   */
  function Detect(outcome: CommandOutcome): (r: Option<string>)
    ensures r == if AllIn(RawType(outcome), Separators) then None
                 else Some(RawType(outcome)[..FirstIndex(RawType(outcome), Separators)])
    ensures r.Some? ==> NoneIn(r.value, Separators) && r.value <= RawType(outcome)
  {
    SplitOnRunsFirst(RawType(outcome), Separators);
    First(SplitOnRuns(RawType(outcome), Separators))
  }

  /** Characters from `-` upwards other than `:` and `;`: neither separators nor parentheses nor line feeds. */
  predicate Plain(c: char) {
    c >= '-' && c != ':' && c != ';'
  }

  lemma PlainIsInert(s: string)
    requires forall i :: 0 <= i < |s| ==> Plain(s[i])
    ensures NoneIn(s, Separators)
    ensures !HasParenGroupSpec(s)
  {
  }

  lemma DefaultHasNoSeparator()
    ensures NoneIn(SensibleDefault, Separators)
    ensures !HasParenGroupSpec(SensibleDefault)
  {
    assert forall i :: 0 <= i < |SensibleDefault| ==> Plain(SensibleDefault[i]);
    PlainIsInert(SensibleDefault);
  }

  /** Whatever the outcome, a separator-free raw type is reported as it is. */
  lemma TokenReported(outcome: CommandOutcome, token: string)
    requires RawType(outcome) == token && token != "" && NoneIn(token, Separators)
    ensures Detect(outcome) == Some(token)
  {
    PlainHasNoFirstSeparator(token, Separators);
  }

  /** A single token without separators or parenthesised group is reported as it is. */
  lemma PlainTokenUnchanged(token: string)
    requires token != "" && NoneIn(token, Separators) && !HasParenGroupSpec(token)
    ensures Detect(Output(Some(token))) == Some(token)
  {
    HasParenGroupIff(token);
    TokenReported(Output(Some(token)), token);
  }

  /** The default passes through normalisation unchanged. */
  lemma DefaultUnchanged()
    ensures Detect(Output(Some(SensibleDefault))) == Some(SensibleDefault)
  {
    DefaultHasNoSeparator();
    PlainTokenUnchanged(SensibleDefault);
  }

  /** A command-line error or nil output yields the default. */
  lemma FailureGivesDefault(outcome: CommandOutcome)
    requires outcome == CommandLineError || outcome == Output(None)
    ensures Detect(outcome) == Some(SensibleDefault)
  {
    DefaultHasNoSeparator();
    TokenReported(outcome, SensibleDefault);
  }

  /** Output with a parenthesised message on one line (`cannot open ... (No such file or directory)`) yields the default. */
  lemma ParenthesisedGivesDefault(text: string)
    requires HasParenGroupSpec(text)
    ensures Detect(Output(Some(text))) == Some(SensibleDefault)
  {
    HasParenGroupIff(text);
    DefaultHasNoSeparator();
    TokenReported(Output(Some(text)), SensibleDefault);
  }

  /** Output made only of separators (the empty output included) yields nil. */
  lemma OnlySeparatorsGiveNil(text: string)
    requires AllIn(text, Separators)
    ensures Detect(Output(Some(text))) == None
  {
    HasParenGroupIff(text);
    assert !HasParenGroupSpec(text) by {
      assert forall i :: 0 <= i < |text| ==> text[i] != '(';
    }
  }

  /** A type followed by a separator and anything else normalises to the type, e.g. `image/jpeg\n`. */
  lemma TokenBeforeSeparator(token: string, sep: char, tail: string)
    requires token != "" && NoneIn(token, Separators) && sep in Separators
    requires !HasParenGroupSpec(token + [sep] + tail)
    ensures Detect(Output(Some(token + [sep] + tail))) == Some(token)
  {
    var t := token + [sep] + tail;
    HasParenGroupIff(t);
    assert t[|token|] in Separators;
    assert forall i :: 0 <= i < |token| ==> t[i] == token[i];
    assert FirstIndex(t, Separators) == |token|;
    assert t[..|token|] == token;
  }

  lemma JpegWithNewline()
    ensures Detect(Output(Some("image/jpeg\n"))) == Some("image/jpeg")
  {
    var token := "image/jpeg";
    var t := token + "\n" + "";
    assert t == "image/jpeg\n";
    assert forall i :: 0 <= i < |token| ==> Plain(token[i]);
    PlainIsInert(token);
    assert forall i :: 0 <= i < |t| ==> t[i] != ')';
    TokenBeforeSeparator(token, '\n', "");
  }
}

=== FILE: file_content_type_validator.dfy ===
/**
 * ActiveModel::Validations::FileContentTypeValidator: the `allow` and
 * `exclude` options, flattened into lists of patterns, are matched with `===`
 * against the upload's `content_type`.
 */
module FileContentTypeValidator {
  import opened Wrappers
  import opened RubyValues
  import opened ValidationErrors

  /** A regular expression, by its source; matching it is a parameter of the model. */
  datatype Regexp = Regexp(source: string)

  /** Whether a regular expression matches somewhere in a string. */
  type Matcher = (Regexp, string) -> bool

  /**
   * A Ruby object that is not a String, nil or an Array: those three have
   * constructors of their own below, because `check_validity!` and `flatten`
   * treat them differently.
   */
  type OtherObject = v: Value | !v.Str? && !v.Nil? && !v.Arr? witness Int(0)

  /**
   * An option value: a string, a regexp, an array, nil, a proc (with what it
   * returns when called with the record, and what it answers when called with
   * a content type), or any other object.
   */
  datatype OptionValue =
    | Text(s: string)
    | Pattern(r: Regexp)
    | List(items: seq<OptionValue>)
    | NilValue
    | Proc(result: OptionValue, test: Value -> bool)
    | Other(v: OtherObject)

  /** The `allow` and `exclude` options; None when the key is not given. */
  datatype Options = Options(allow: Option<OptionValue>, exclude: Option<OptionValue>)

  /** One element of `[option].flatten.compact`, as seen by `===`. */
  datatype Element = Exact(s: string) | Regex(r: Regexp) | Callable(test: Value -> bool) | Equal(v: Value)

  const AtLeastOneMessage: string := "You must at least pass in :allow or :exclude option"

  /** `check_validity!` accepts a string, an array, a regexp or a proc. */
  predicate Accepted(v: OptionValue) {
    v.Text? || v.List? || v.Pattern? || v.Proc?
  }

  function KindMessage(option: string): string {
    ":" + option + " must be a string, an array, a regex or a proc"
  }

  /**
   * `check_validity!`: `allow` or `exclude` must be given, and each that is
   * given (first `allow`, then `exclude`) must be of an accepted kind.
   */
  function CheckValidity(opts: Options): (r: Result<(), ArgumentError>)
    ensures r.Ok? <==> (opts.allow.Some? || opts.exclude.Some?)
                       && (opts.allow.Some? ==> Accepted(opts.allow.value))
                       && (opts.exclude.Some? ==> Accepted(opts.exclude.value))
    ensures opts.allow.None? && opts.exclude.None? ==> r == Err(ArgumentError(AtLeastOneMessage))
    ensures opts.allow.Some? && !Accepted(opts.allow.value) ==> r == Err(ArgumentError(KindMessage("allow")))
    ensures ((opts.allow.Some? ==> Accepted(opts.allow.value)) && opts.exclude.Some? && !Accepted(opts.exclude.value))
              ==> r == Err(ArgumentError(KindMessage("exclude")))
  {
    if opts.allow.None? && opts.exclude.None? then Err(ArgumentError(AtLeastOneMessage))
    else if opts.allow.Some? && !Accepted(opts.allow.value) then Err(ArgumentError(KindMessage("allow")))
    else if opts.exclude.Some? && !Accepted(opts.exclude.value) then Err(ArgumentError(KindMessage("exclude")))
    else Ok(())
  }

  /** `xs.flatten.compact`: nested arrays spliced in order, nils dropped. */
  function Flatten(xs: seq<OptionValue>): seq<Element>
    decreases xs, 1
  {
    if |xs| == 0 then [] else FlattenOne(xs[0]) + Flatten(xs[1..])
  }

  /** What one value contributes to `flatten.compact`. */
  function FlattenOne(x: OptionValue): seq<Element>
    decreases x, 0
  {
    match x
    case Text(s) => [Exact(s)]
    case Pattern(r) => [Regex(r)]
    case List(items) => Flatten(items)
    case NilValue => []
    case Proc(_, test) => [Callable(test)]
    case Other(v) => [Equal(v)]
  }

  /** `option_content_types`: the option's value (a proc is called first), flattened; nothing when absent. */
  function OptionContentTypes(option: Option<OptionValue>): seq<Element> {
    match option
    case None => []
    case Some(Proc(result, _)) => Flatten([result])
    case Some(v) => Flatten([v])
  }

  /** `type === file_type` for each kind of element. */
  predicate CaseEquals(e: Element, fileType: Value, matcher: Matcher) {
    match e
    case Exact(s) => fileType == Str(s)
    case Regex(r) => fileType.Str? && matcher(r, fileType.s)
    case Callable(test) => test(fileType)
    case Equal(v) => v == fileType
  }

  /** Some element of `types` matches `fileType`. */
  predicate AnyMatches(types: seq<Element>, fileType: Value, matcher: Matcher) {
    exists i :: 0 <= i < |types| && CaseEquals(types[i], fileType, matcher)
  }

  /**
   * The option value matches `fileType`: one of its flattened elements does.
   * Defined on the option's structure, independently of `Flatten`.
   */
  predicate Mentions(xs: seq<OptionValue>, fileType: Value, matcher: Matcher)
    decreases xs
  {
    if |xs| == 0 then false
    else
    (match xs[0]
     case Text(s) => fileType == Str(s)
     case Pattern(r) => fileType.Str? && matcher(r, fileType.s)
     case List(items) => Mentions(items, fileType, matcher)
     case NilValue => false
     case Proc(_, test) => test(fileType)
     case Other(v) => v == fileType)
    || Mentions(xs[1..], fileType, matcher)
  }

  lemma AnyMatchesAppend(a: seq<Element>, b: seq<Element>, fileType: Value, matcher: Matcher)
    ensures AnyMatches(a + b, fileType, matcher) <==> AnyMatches(a, fileType, matcher) || AnyMatches(b, fileType, matcher)
  {
    if AnyMatches(a + b, fileType, matcher) {
      var i :| 0 <= i < |a + b| && CaseEquals((a + b)[i], fileType, matcher);
      if i >= |a| {
        assert (a + b)[i] == b[i - |a|];
      }
    }
    if AnyMatches(b, fileType, matcher) {
      var i :| 0 <= i < |b| && CaseEquals(b[i], fileType, matcher);
      assert (a + b)[|a| + i] == b[i];
    }
    if AnyMatches(a, fileType, matcher) {
      var i :| 0 <= i < |a| && CaseEquals(a[i], fileType, matcher);
      assert (a + b)[i] == a[i];
    }
  }

  /** Flattening keeps exactly the matches: some flattened element matches iff the nested value does. */
  lemma {:induction false} FlattenMatches(xs: seq<OptionValue>, fileType: Value, matcher: Matcher)
    ensures AnyMatches(Flatten(xs), fileType, matcher) <==> Mentions(xs, fileType, matcher)
    decreases xs, 1
  {
    if |xs| > 0 {
      AnyMatchesAppend(FlattenOne(xs[0]), Flatten(xs[1..]), fileType, matcher);
      FlattenOneMatches(xs[0], fileType, matcher);
      FlattenMatches(xs[1..], fileType, matcher);
      assert [xs[0]][0] == xs[0] && [xs[0]][1..] == [];
    }
  }

  /** The same for what a single value contributes. */
  lemma {:induction false} FlattenOneMatches(x: OptionValue, fileType: Value, matcher: Matcher)
    ensures AnyMatches(FlattenOne(x), fileType, matcher) <==> Mentions([x], fileType, matcher)
    decreases x, 0
  {
    assert [x][0] == x && [x][1..] == [];
    if x.List? {
      FlattenMatches(x.items, fileType, matcher);
    } else if !x.NilValue? {
      var h := FlattenOne(x);
      assert |h| == 1;
      assert AnyMatches(h, fileType, matcher) <==> CaseEquals(h[0], fileType, matcher);
    }
  }

  /** Flattening nests: a list's elements come out in order, after what precedes them. */
  lemma {:induction false} FlattenAppend(a: seq<OptionValue>, b: seq<OptionValue>)
    ensures Flatten(a + b) == Flatten(a) + Flatten(b)
  {
    if |a| == 0 {
      assert a + b == b;
    } else {
      assert (a + b)[0] == a[0];
      assert (a + b)[1..] == a[1..] + b;
      FlattenAppend(a[1..], b);
    }
  }

  /** Nils, and lists of nothing but nils, contribute nothing. */
  lemma {:induction false} FlattenDropsNils(xs: seq<OptionValue>)
    requires forall i :: 0 <= i < |xs| ==> xs[i] == NilValue
    ensures Flatten(xs) == []
  {
    if |xs| > 0 {
      FlattenDropsNils(xs[1..]);
    }
  }

  /** `validate_whitelist`: an error when the allowed list is non-empty and nothing in it matches. */
  function WhitelistErrors(attribute: string, fileType: Value, allowed: seq<Element>, matcher: Matcher): (r: seq<Entry>)
    ensures r == [] || r == [Entry(attribute, "allowed_file_content_types")]
    ensures r != [] <==> |allowed| > 0 && !AnyMatches(allowed, fileType, matcher)
  {
    if |allowed| > 0 && !AnyMatches(allowed, fileType, matcher) then [Entry(attribute, "allowed_file_content_types")]
    else []
  }

  /** `validate_blacklist`: an error when anything in the excluded list matches. */
  function BlacklistErrors(attribute: string, fileType: Value, forbidden: seq<Element>, matcher: Matcher): (r: seq<Entry>)
    ensures r == [] || r == [Entry(attribute, "excluded_file_content_types")]
    ensures r != [] <==> AnyMatches(forbidden, fileType, matcher)
  {
    if AnyMatches(forbidden, fileType, matcher) then [Entry(attribute, "excluded_file_content_types")]
    else []
  }

  /**
   * `validate_each`: nothing for a blank value; otherwise the upload's
   * `content_type` (which may be missing) checked against both lists.
   */
  function ValidateEach(attribute: string, value: Value, opts: Options, matcher: Matcher): (r: Result<seq<Entry>, RubyError>)
    ensures Blank(value) ==> r == Ok([])
    ensures !Blank(value) && Send(value, "content_type").Err? ==> r == Err(NoMethodError("content_type"))
  {
    if Blank(value) then Ok([])
    else
      var allowed := OptionContentTypes(opts.allow);
      var forbidden := OptionContentTypes(opts.exclude);
      var fileType :- Send(value, "content_type");
      Ok(WhitelistErrors(attribute, fileType, allowed, matcher) + BlacklistErrors(attribute, fileType, forbidden, matcher))
  }

  /** A completed run: the whitelist error, if any, then the blacklist error, if any. */
  lemma ValidateEachOf(attribute: string, value: Value, opts: Options, matcher: Matcher, fileType: Value)
    requires !Blank(value) && Send(value, "content_type") == Ok(fileType)
    ensures ValidateEach(attribute, value, opts, matcher) ==
              Ok(WhitelistErrors(attribute, fileType, OptionContentTypes(opts.allow), matcher) +
                 BlacklistErrors(attribute, fileType, OptionContentTypes(opts.exclude), matcher))
  {
  }

  /** What the option matches, in terms of the option value itself. */
  ghost predicate OptionMatches(option: Option<OptionValue>, fileType: Value, matcher: Matcher) {
    match option
    case None => false
    case Some(Proc(result, _)) => Mentions([result], fileType, matcher)
    case Some(v) => Mentions([v], fileType, matcher)
  }

  lemma OptionContentTypesMatch(option: Option<OptionValue>, fileType: Value, matcher: Matcher)
    ensures AnyMatches(OptionContentTypes(option), fileType, matcher) <==> OptionMatches(option, fileType, matcher)
  {
    match option
    case None =>
    case Some(Proc(result, _)) => FlattenMatches([result], fileType, matcher);
    case Some(v) => FlattenMatches([v], fileType, matcher);
  }

  /**
   * For an upload with content type `fileType`: an `allowed_file_content_types`
   * error exactly when `allow` yields some type and none matches, an
   * `excluded_file_content_types` error exactly when some `exclude` type
   * matches, and nothing else.
   */
  lemma ValidateEachIff(attribute: string, value: Value, opts: Options, matcher: Matcher, fileType: Value)
    requires !Blank(value) && Send(value, "content_type") == Ok(fileType)
    ensures ValidateEach(attribute, value, opts, matcher).Ok?
    ensures var errors := ValidateEach(attribute, value, opts, matcher).value;
            (Entry(attribute, "allowed_file_content_types") in errors <==>
               |OptionContentTypes(opts.allow)| > 0 && !OptionMatches(opts.allow, fileType, matcher)) &&
            (Entry(attribute, "excluded_file_content_types") in errors <==>
               OptionMatches(opts.exclude, fileType, matcher)) &&
            |errors| <= 2 &&
            forall e :: e in errors ==> e.attribute == attribute
  {
    ValidateEachOf(attribute, value, opts, matcher, fileType);
    OptionContentTypesMatch(opts.allow, fileType, matcher);
    OptionContentTypesMatch(opts.exclude, fileType, matcher);
    var w := WhitelistErrors(attribute, fileType, OptionContentTypes(opts.allow), matcher);
    var b := BlacklistErrors(attribute, fileType, OptionContentTypes(opts.exclude), matcher);
    assert Entry(attribute, "allowed_file_content_types") != Entry(attribute, "excluded_file_content_types");
    assert forall e :: e in w + b <==> e in w || e in b;
  }

  /** A type both allowed and excluded is reported as excluded only. */
  lemma ExcludeWins(attribute: string, value: Value, opts: Options, matcher: Matcher, fileType: Value)
    requires !Blank(value) && Send(value, "content_type") == Ok(fileType)
    requires OptionMatches(opts.allow, fileType, matcher) && OptionMatches(opts.exclude, fileType, matcher)
    ensures ValidateEach(attribute, value, opts, matcher) == Ok([Entry(attribute, "excluded_file_content_types")])
  {
    ValidateEachOf(attribute, value, opts, matcher, fileType);
    var nothing: seq<Entry> := [];
    assert nothing + [Entry(attribute, "excluded_file_content_types")] == [Entry(attribute, "excluded_file_content_types")];
    OptionContentTypesMatch(opts.allow, fileType, matcher);
    OptionContentTypesMatch(opts.exclude, fileType, matcher);
  }

  /** Without `allow` every type is allowed; without `exclude` none is excluded. */
  lemma AbsentOptionsAllowAll(attribute: string, value: Value, matcher: Matcher)
    ensures ValidateEach(attribute, value, Options(None, None), matcher).Ok? ==>
              ValidateEach(attribute, value, Options(None, None), matcher) == Ok([])
  {
    if !Blank(value) && Send(value, "content_type").Ok? {
      ValidateEachOf(attribute, value, Options(None, None), matcher, Send(value, "content_type").value);
      var nothing: seq<Entry> := [];
      assert nothing + nothing == nothing;
    }
  }

  /** An `allow` or `exclude` of nil, or a proc returning nil or an array of nils, restricts nothing. */
  lemma NilOptionRestrictsNothing(option: OptionValue, fileType: Value, matcher: Matcher)
    requires option == NilValue || option == List([NilValue, NilValue]) || (option.Proc? && option.result == NilValue)
    ensures OptionContentTypes(Some(option)) == []
  {
    if option.Proc? {
      FlattenDropsNils([option.result]);
    } else if option.List? {
      FlattenDropsNils(option.items);
      assert Flatten([option]) == Flatten(option.items) + Flatten([option][1..]);
    } else {
      FlattenDropsNils([option]);
    }
  }

  /** A string is compared exactly: `allow: 'image/png'` rejects `image/jpeg`. */
  lemma ExactStringCompare(attribute: string, value: Value, matcher: Matcher, allowed: string, given: string)
    requires allowed == "image/png" && given == "image/jpeg"
    requires !Blank(value) && Send(value, "content_type") == Ok(Str(given))
    ensures ValidateEach(attribute, value, Options(Some(Text(allowed)), None), matcher)
              == Ok([Entry(attribute, "allowed_file_content_types")])
  {
    assert allowed != given by {
      assert allowed[6] != given[6];
    }
    assert !AnyMatches([Exact(allowed)], Str(given), matcher);
    assert OptionContentTypes(Some(Text(allowed))) == [Exact(allowed)] by {
      assert [Text(allowed)][1..] == [];
      assert Flatten([Text(allowed)]) == [Exact(allowed)] + Flatten([]);
    }
    ValidateEachOf(attribute, value, Options(Some(Text(allowed)), None), matcher, Str(given));
    var e := [Entry(attribute, "allowed_file_content_types")];
    assert e + [] == e;
  }

  /** A nested list is searched throughout: `allow: ['a', ['b']]` allows `b`. */
  lemma NestedListAllows(attribute: string, value: Value, matcher: Matcher, a: string, b: string)
    requires !Blank(value) && Send(value, "content_type") == Ok(Str(b))
    ensures ValidateEach(attribute, value, Options(Some(List([Text(a), List([Text(b)])])), None), matcher) == Ok([])
  {
    var opts := Options(Some(List([Text(a), List([Text(b)])])), None);
    assert Mentions([List([Text(b)])], Str(b), matcher);
    assert Mentions([Text(a), List([Text(b)])], Str(b), matcher) by {
      assert [Text(a), List([Text(b)])][1..] == [List([Text(b)])];
    }
    assert OptionMatches(opts.allow, Str(b), matcher);
    OptionContentTypesMatch(opts.allow, Str(b), matcher);
    ValidateEachOf(attribute, value, opts, matcher, Str(b));
    var nothing: seq<Entry> := [];
    assert nothing + nothing == nothing;
  }

  /** A regexp allows, or excludes, what the matcher says it matches. */
  lemma RegexpAllows(attribute: string, value: Value, matcher: Matcher, r: Regexp, t: string)
    requires !Blank(value) && Send(value, "content_type") == Ok(Str(t)) && matcher(r, t)
    ensures ValidateEach(attribute, value, Options(Some(Pattern(r)), None), matcher) == Ok([])
    ensures ValidateEach(attribute, value, Options(None, Some(Pattern(r))), matcher)
              == Ok([Entry(attribute, "excluded_file_content_types")])
  {
    assert Flatten([Pattern(r)]) == [Regex(r)];
    assert AnyMatches([Regex(r)], Str(t), matcher) by {
      assert CaseEquals([Regex(r)][0], Str(t), matcher);
    }
    ValidateEachOf(attribute, value, Options(Some(Pattern(r)), None), matcher, Str(t));
    ValidateEachOf(attribute, value, Options(None, Some(Pattern(r))), matcher, Str(t));
    var nothing: seq<Entry> := [];
    assert nothing + nothing == nothing;
    var e := [Entry(attribute, "excluded_file_content_types")];
    assert nothing + e == e;
  }

  /** A proc option behaves as the value it returns for the record. */
  lemma ProcActsAsResult(attribute: string, value: Value, matcher: Matcher, result: OptionValue, test: Value -> bool)
    requires !result.Proc?
    ensures ValidateEach(attribute, value, Options(Some(Proc(result, test)), None), matcher)
              == ValidateEach(attribute, value, Options(Some(result), None), matcher)
    ensures ValidateEach(attribute, value, Options(None, Some(Proc(result, test))), matcher)
              == ValidateEach(attribute, value, Options(None, Some(result)), matcher)
  {
  }
}

=== FILE: file_size_validator.dfy ===
/**
 * ActiveModel::Validations::FileSizeValidator: option checking at
 * construction, normalisation of the attribute value into a list of uploads,
 * and one error per size option that some upload violates.
 */
module FileSizeValidator {
  import opened Wrappers
  import opened RubyValues
  import opened ValidationErrors

  /** The keys of `CHECKS`. */
  datatype Check = In | LessThan | LessThanOrEqualTo | GreaterThan | GreaterThanOrEqualTo

  /** `CHECKS.keys`, in their order. */
  const Checks: seq<Check> := [In, LessThan, LessThanOrEqualTo, GreaterThan, GreaterThanOrEqualTo]

  /** The options `check_validity!` checks first, for being numeric. */
  const NumericChecks: seq<Check> := [LessThan, LessThanOrEqualTo, GreaterThan, GreaterThanOrEqualTo]

  function OptionName(c: Check): string {
    match c
    case In => "in"
    case LessThan => "less_than"
    case LessThanOrEqualTo => "less_than_or_equal_to"
    case GreaterThan => "greater_than"
    case GreaterThanOrEqualTo => "greater_than_or_equal_to"
  }

  /** The error key `file_size_is_<option>`. */
  function ErrorKey(c: Check): string {
    "file_size_is_" + OptionName(c)
  }

  /** Different options have different error keys. */
  lemma ErrorKeyInjective(a: Check, b: Check)
    ensures ErrorKey(a) == ErrorKey(b) <==> a == b
  {
    if a != b {
      assert |OptionName(a)| != |OptionName(b)|;
      assert |ErrorKey(a)| != |ErrorKey(b)|;
    }
  }

  /** An option's value once any proc has been called: a number, a range, or anything else. */
  datatype Bound = Number(n: int) | Range(first: int, last: int, excludeEnd: bool) | OtherObject

  /** An option as given: a value, or a proc together with the value it returns for the record. */
  datatype OptionValue = Given(bound: Bound) | Proc(result: Bound)

  /** The size options passed to the validator. */
  type Options = map<Check, OptionValue>

  /** `option_value.call(record) if option_value.is_a?(Proc)`. */
  function BoundOf(v: OptionValue): Bound {
    match v
    case Given(b) => b
    case Proc(b) => b
  }

  const AtLeastOneMessage: string :=
    "You must at least pass in one of these options - :in, :less_than, :less_than_or_equal_to, :greater_than and :greater_than_or_equal_to"

  /** `check_options`: `in` takes a range or a proc, the others a number or a proc. */
  predicate Accepted(c: Check, v: OptionValue) {
    v.Proc? || (if c == In then v.bound.Range? else v.bound.Number?)
  }

  /** The message `check_options` raises for option `c`, spelled out. */
  function KindMessage(c: Check): string {
    match c
    case In => ":in must be a range or a proc"
    case LessThan => ":less_than must be a numeric or a proc"
    case LessThanOrEqualTo => ":less_than_or_equal_to must be a numeric or a proc"
    case GreaterThan => ":greater_than must be a numeric or a proc"
    case GreaterThanOrEqualTo => ":greater_than_or_equal_to must be a numeric or a proc"
  }

  lemma EveryCheck(c: Check)
    ensures c in [In] || c in NumericChecks
  {
  }

  /** Option `c` is given, with a value of the wrong kind. */
  predicate WrongKind(opts: Options, c: Check) {
    c in opts && !Accepted(c, opts[c])
  }

  /** The order `check_validity!` checks the options in: `CHECKS.keys - [:in]`, then `in`. */
  const ValidityOrder: seq<Check> := NumericChecks + [In]

  /** The first option of `cs` that is given with a value of the wrong kind. */
  function FirstRejected(opts: Options, cs: seq<Check>): (r: Option<Check>)
    ensures r.Some? ==> r.value in cs && WrongKind(opts, r.value)
    ensures r.Some? ==>
              exists k :: 0 <= k < |cs| && cs[k] == r.value && forall j :: 0 <= j < k ==> !WrongKind(opts, cs[j])
    ensures r.None? ==> forall c :: c in cs ==> !WrongKind(opts, c)
  {
    if |cs| == 0 then None
    else if WrongKind(opts, cs[0]) then Some(cs[0])
    else
      var r := FirstRejected(opts, cs[1..]);
      if r.Some? then
        var k :| 0 <= k < |cs[1..]| && cs[1..][k] == r.value &&
                 forall j :: 0 <= j < k ==> !WrongKind(opts, cs[1..][j]);
        assert cs[k + 1] == r.value;
        r
      else
        assert forall c :: c in cs ==> c == cs[0] || c in cs[1..];
        r
  }

  /** Looking through `a + b` finds `a`'s first wrong option, else `b`'s. */
  lemma {:induction false} FirstRejectedAppend(opts: Options, a: seq<Check>, b: seq<Check>)
    ensures FirstRejected(opts, a + b) == if FirstRejected(opts, a).Some? then FirstRejected(opts, a) else FirstRejected(opts, b)
  {
    if |a| > 0 {
      assert (a + b)[0] == a[0];
      assert (a + b)[1..] == a[1..] + b;
      FirstRejectedAppend(opts, a[1..], b);
    } else {
      assert a + b == b;
    }
  }

  /**
   * `check_validity!`: at least one size option, then every option of the
   * right kind (the numeric options are checked before `in`).
   */
  function CheckValidity(opts: Options): (r: Result<(), ArgumentError>)
    ensures r.Ok? <==> |opts| > 0 && forall c :: c in opts ==> Accepted(c, opts[c])
    ensures |opts| == 0 ==> r == Err(ArgumentError(AtLeastOneMessage))
    ensures r.Err? && |opts| > 0 ==>
              exists c :: c in opts && !Accepted(c, opts[c]) && r.error == ArgumentError(KindMessage(c))
    ensures r.Err? && |opts| > 0 ==>
              exists k ::
                0 <= k < |ValidityOrder| && WrongKind(opts, ValidityOrder[k]) &&
                r.error == ArgumentError(KindMessage(ValidityOrder[k])) &&
                forall j :: 0 <= j < k ==> !WrongKind(opts, ValidityOrder[j])
  {
    FirstRejectedAppend(opts, NumericChecks, [In]);
    if |opts| == 0 then Err(ArgumentError(AtLeastOneMessage))
    else match FirstRejected(opts, NumericChecks)
      case Some(c) => Err(ArgumentError(KindMessage(c)))
      case None =>
        match FirstRejected(opts, [In])
        case Some(c) => Err(ArgumentError(KindMessage(c)))
        case None =>
          assert forall c :: c in opts ==> Accepted(c, opts[c]) by {
            forall c | c in opts
              ensures Accepted(c, opts[c])
            {
              EveryCheck(c);
            }
          }
          Ok(())
  }

  /** A number or a proc for `less_than`, and a range for `in`, are accepted. */
  lemma OptionKindsAccepted(n: int, lo: int, hi: int)
    ensures CheckValidity(map[LessThan := Given(Number(n))]).Ok?
    ensures CheckValidity(map[LessThan := Proc(Number(n))]).Ok?
    ensures CheckValidity(map[In := Given(Range(lo, hi, false))]).Ok?
  {
  }

  /** A number for `in` is rejected with the `in` message. */
  lemma NumberForInRejected(n: int, message: string)
    requires message == ":in must be a range or a proc"
    ensures CheckValidity(map[In := Given(Number(n))]) == Err(ArgumentError(message))
  {
    var m := map[In := Given(Number(n))];
    assert FirstRejected(m, NumericChecks) == None by {
      assert forall c :: c in NumericChecks ==> c !in m;
    }
    assert FirstRejected(m, [In]) == Some(In);
  }


  /** A range for `less_than` is rejected with the `less_than` message. */
  lemma RangeForLessThanRejected(lo: int, hi: int, message: string)
    requires message == ":less_than must be a numeric or a proc"
    ensures CheckValidity(map[LessThan := Given(Range(lo, hi, false))]) == Err(ArgumentError(message))
  {
    var m := map[LessThan := Given(Range(lo, hi, false))];
    assert FirstRejected(m, NumericChecks) == Some(LessThan);
  }

  /** With two wrong options, the one earlier in `CHECKS` is reported: `less_than` before `greater_than`. */
  lemma EarlierWrongOptionReported(lo: int, hi: int, message: string)
    requires message == ":less_than must be a numeric or a proc"
    ensures CheckValidity(map[LessThan := Given(Range(lo, hi, false)), GreaterThan := Given(Range(lo, hi, false))])
              == Err(ArgumentError(message))
  {
    var m := map[LessThan := Given(Range(lo, hi, false)), GreaterThan := Given(Range(lo, hi, false))];
    assert FirstRejected(m, NumericChecks) == Some(LessThan);
  }

  /** `Range#===` on integers: `cover?`, with or without the end. */
  predicate Covers(first: int, last: int, excludeEnd: bool, size: Value) {
    size.Int? && first <= size.n && (if excludeEnd then size.n < last else size.n <= last)
  }

  /** `size.send(op, bound)` for the four comparisons. */
  predicate Compare(c: Check, size: int, bound: int)
    requires c != In
  {
    match c
    case LessThan => size < bound
    case LessThanOrEqualTo => size <= bound
    case GreaterThan => size > bound
    case GreaterThanOrEqualTo => size >= bound
  }

  function Operator(c: Check): string {
    match c
    case In => "==="
    case LessThan => "<"
    case LessThanOrEqualTo => "<="
    case GreaterThan => ">"
    case GreaterThanOrEqualTo => ">="
  }

  /**
   * `valid_size?`: nil is never valid; a range bound is asked `range === size`
   * (any other operator is undefined on a range); otherwise the size is asked
   * `size <op> bound`, where `===` is equality and an ordering on anything but
   * two integers raises.
   */
  function ValidSize(size: Value, c: Check, bound: Bound): (r: Result<bool, RubyError>)
    ensures size.Nil? ==> r == Ok(false)
    ensures !size.Nil? && c == In && bound.Range? ==> r == Ok(Covers(bound.first, bound.last, bound.excludeEnd, size))
    ensures !size.Nil? && c != In && bound.Range? ==> r == Err(NoMethodError(Operator(c)))
    ensures !size.Nil? && c == In && !bound.Range? ==> r == Ok(size.Int? && bound.Number? && size.n == bound.n)
    ensures size.Int? && c != In && bound.Number? ==> r == Ok(Compare(c, size.n, bound.n))
  {
    if size.Nil? then Ok(false)
    else match bound
      case Range(first, last, excl) =>
        if c == In then Ok(Covers(first, last, excl, size)) else Err(NoMethodError(Operator(c)))
      case Number(m) =>
        if c == In then Ok(size.Int? && size.n == m)
        else if size.Int? then Ok(Compare(c, size.n, m))
        else Err(ComparisonFailed)
      case OtherObject =>
        if c == In then Ok(false) else Err(ComparisonFailed)
  }

  /** `less_than` and `greater_than` reject equality; the `_or_equal_to` forms accept it. */
  lemma Strictness(n: int)
    ensures ValidSize(Int(n), LessThan, Number(n)) == Ok(false)
    ensures ValidSize(Int(n), GreaterThan, Number(n)) == Ok(false)
    ensures ValidSize(Int(n), LessThanOrEqualTo, Number(n)) == Ok(true)
    ensures ValidSize(Int(n), GreaterThanOrEqualTo, Number(n)) == Ok(true)
  {
  }

  /** `in: 5.kilobytes..10.kilobytes` allows 7 KB and rejects 4 KB and 11 KB, and both ends are inside. */
  lemma InclusiveRange()
    ensures ValidSize(Int(7 * 1024), In, Range(5 * 1024, 10 * 1024, false)) == Ok(true)
    ensures ValidSize(Int(4 * 1024), In, Range(5 * 1024, 10 * 1024, false)) == Ok(false)
    ensures ValidSize(Int(11 * 1024), In, Range(5 * 1024, 10 * 1024, false)) == Ok(false)
    ensures ValidSize(Int(5 * 1024), In, Range(5 * 1024, 10 * 1024, false)) == Ok(true)
    ensures ValidSize(Int(10 * 1024), In, Range(5 * 1024, 10 * 1024, false)) == Ok(true)
  {
  }

  /** A nil size is invalid for every option, and a zero-byte file passes `less_than: 3.kilobytes`. */
  lemma NilAndZeroSizes(c: Check, bound: Bound)
    ensures ValidSize(Nil, c, bound) == Ok(false)
    ensures ValidSize(Int(0), LessThan, Number(3 * 1024)) == Ok(true)
  {
  }

  /** `value_byte_size`: `byte_size` when the upload responds to it, otherwise `size`. */
  function ValueByteSize(v: Value): (r: Result<Value, RubyError>)
    ensures RespondTo(v, "byte_size") ==> r == Send(v, "byte_size")
    ensures !RespondTo(v, "byte_size") ==> r == Send(v, "size")
  {
    if RespondTo(v, "byte_size") then Send(v, "byte_size") else Send(v, "size")
  }

  /** An upload that has both reports its `byte_size`, not its `size`. */
  lemma ByteSizePreferred(methods: map<string, Value>)
    requires "byte_size" in methods && "size" in methods
    ensures ValueByteSize(Obj(methods)) == Ok(methods["byte_size"])
    ensures ValueByteSize(Struct(methods)) == Ok(methods["byte_size"])
  {
  }

  /** An OpenStruct without `byte_size` or `size` has a nil size, which is invalid. */
  lemma StructWithoutSize(fields: map<string, Value>, c: Check, bound: Bound)
    requires "byte_size" !in fields && "size" !in fields
    ensures Verdict(Struct(fields), c, bound) == Ok(false)
  {
  }

  /** Whether one upload satisfies one option. */
  function Verdict(v: Value, c: Check, bound: Bound): Result<bool, RubyError> {
    var size :- ValueByteSize(v);
    ValidSize(size, c, bound)
  }

  /**
   * `values.any? { |v| !valid_size?(...) }`, stopping at the first invalid
   * upload; an exception on the way propagates.
   */
  function AnyInvalid(vs: seq<Value>, c: Check, bound: Bound): (r: Result<bool, RubyError>)
    ensures r == Ok(false) <==> forall i :: 0 <= i < |vs| ==> Verdict(vs[i], c, bound) == Ok(true)
    ensures r == Ok(true) ==> exists i :: 0 <= i < |vs| && Verdict(vs[i], c, bound) == Ok(false)
    ensures r.Err? ==> exists i :: 0 <= i < |vs| && Verdict(vs[i], c, bound).Err?
  {
    if |vs| == 0 then Ok(false)
    else
      var ok :- Verdict(vs[0], c, bound);
      if !ok then Ok(true)
      else
        assert forall i :: 1 <= i < |vs| ==> vs[i] == vs[1..][i - 1];
        AnyInvalid(vs[1..], c, bound)
  }

  /** `check_errors`: one `file_size_is_<option>` error when some upload violates the option. */
  function CheckErrors(attribute: string, vs: seq<Value>, c: Check, v: OptionValue): (r: Result<seq<Entry>, RubyError>)
    ensures r.Err? <==> AnyInvalid(vs, c, BoundOf(v)).Err?
    ensures r.Ok? ==> r.value == if Violated(vs, c, v) then [Entry(attribute, ErrorKey(c))] else []
  {
    var invalid :- AnyInvalid(vs, c, BoundOf(v));
    if invalid then Ok([Entry(attribute, ErrorKey(c))]) else Ok([])
  }

  /** Some upload violates option `c`. */
  ghost predicate Violated(vs: seq<Value>, c: Check, v: OptionValue) {
    exists i :: 0 <= i < |vs| && Verdict(vs[i], c, BoundOf(v)) == Ok(false)
  }

  /** The errors of option `c`, none when it is not given. */
  function OptionErrors(attribute: string, vs: seq<Value>, opts: Options, c: Check): (r: Result<seq<Entry>, RubyError>)
    ensures r.Ok? ==> r.value == if c in opts && Violated(vs, c, opts[c]) then [Entry(attribute, ErrorKey(c))] else []
  {
    if c in opts then CheckErrors(attribute, vs, c, opts[c]) else Ok([])
  }

  /** The options of `cs` that are given, each checked in turn. */
  function CheckAll(attribute: string, vs: seq<Value>, opts: Options, cs: seq<Check>): Result<seq<Entry>, RubyError> {
    if |cs| == 0 then Ok([])
    else
      var first :- OptionErrors(attribute, vs, opts, cs[0]);
      var rest :- CheckAll(attribute, vs, opts, cs[1..]);
      Ok(first + rest)
  }

  /**
   * Each option among `cs` contributes exactly one error when it is given and
   * some upload violates it, and none otherwise, however many uploads fail.
   */
  lemma {:induction false} CheckAllCounts(attribute: string, vs: seq<Value>, opts: Options, cs: seq<Check>, c: Check)
    requires CheckAll(attribute, vs, opts, cs).Ok?
    requires forall i, j :: 0 <= i < j < |cs| ==> cs[i] != cs[j]
    ensures Count(CheckAll(attribute, vs, opts, cs).value, attribute, ErrorKey(c)) ==
              if c in cs && c in opts && Violated(vs, c, opts[c]) then 1 else 0
  {
    if |cs| > 0 {
      var first := OptionErrors(attribute, vs, opts, cs[0]).value;
      var rest := CheckAll(attribute, vs, opts, cs[1..]).value;
      assert CheckAll(attribute, vs, opts, cs).value == first + rest;
      CheckAllCounts(attribute, vs, opts, cs[1..], c);
      CountAppend(first, rest, attribute, ErrorKey(c));
      ErrorKeyInjective(cs[0], c);
      assert Count(first, attribute, ErrorKey(c)) == if c == cs[0] && c in opts && Violated(vs, c, opts[c]) then 1 else 0;
      assert c == cs[0] ==> c !in cs[1..];
      assert c in cs <==> c == cs[0] || c in cs[1..];
    }
  }

  /** Every error is on the validated attribute, under the key of an option that was given. */
  lemma {:induction false} CheckAllKeys(attribute: string, vs: seq<Value>, opts: Options, cs: seq<Check>)
    requires CheckAll(attribute, vs, opts, cs).Ok?
    ensures forall e :: e in CheckAll(attribute, vs, opts, cs).value ==>
              e.attribute == attribute && exists d :: d in cs && d in opts && e.key == ErrorKey(d)
  {
    if |cs| > 0 {
      CheckAllKeys(attribute, vs, opts, cs[1..]);
      assert forall d :: d in cs[1..] ==> d in cs;
    }
  }

  /** How `parse_values` ends: with the uploads, with `JSON::ParserError`, or with another exception. */
  datatype ParseOutcome = Uploads(values: seq<Value>) | Malformed | Raised(error: RubyError)

  /**
   * `parse_values`: nothing for a blank value; a string is parsed as JSON;
   * nothing for a blank result; a hash becomes an OpenStruct; then
   * `Array.wrap` and blanks dropped. When `Array.wrap` returns a non-array
   * `to_ary` answer, `reject` is not defined on it.
   */
  function ParseValues(value: Value, json: JsonParser): (r: ParseOutcome)
    ensures Blank(value) ==> r == Uploads([])
    ensures r.Malformed? <==> !Blank(value) && value.Str? && json(value.s).ParserError?
    ensures r.Uploads? ==> forall i :: 0 <= i < |r.values| ==> Present(r.values[i])
    ensures r.Raised? ==> r.error == NoMethodError("reject")
    ensures Present(value) && Decoded(value, json).Parsed? && Blank(Decoded(value, json).value) ==>
              r == Uploads([])
    ensures Present(value) && Decoded(value, json).Parsed? && Present(Decoded(value, json).value) ==>
              var u := AsUpload(Decoded(value, json).value);
              !RespondTo(u, "to_ary") ==> r == Uploads(if Present(u) then [u] else [])
    ensures Present(value) && Decoded(value, json).Parsed? && Present(Decoded(value, json).value) ==>
              var u := AsUpload(Decoded(value, json).value);
              RespondTo(u, "to_ary") ==>
                var a := Send(u, "to_ary").value;
                (a.Arr? ==> r.Uploads? && forall x :: x in r.values <==> x in a.elems && Present(x)) &&
                (!Truthy(a) ==> r == Uploads(if Present(u) then [u] else [])) &&
                (Truthy(a) && !a.Arr? ==> r.Raised?)
  {
    if Blank(value) then Uploads([])
    else
      match Decoded(value, json)
      case ParserError => Malformed
      case Parsed(v) =>
        if Blank(v) then Uploads([])
        else match Wrap(AsUpload(v))
          case Some(vs) => Uploads(RejectBlank(vs))
          case None => Raised(NoMethodError("reject"))
  }

  /** What `parse_values` goes on with: the JSON of a string, any other value as it is. */
  function Decoded(value: Value, json: JsonParser): Parsed {
    if value.Str? then json(value.s) else Parsed(value)
  }

  /** `OpenStruct.new(value) if value.is_a?(Hash)`. */
  function AsUpload(v: Value): Value {
    if v.Hash? then Struct(v.entries) else v
  }

  /** An array, parsed or given, gives exactly its present elements. */
  lemma ArrayGivesPresentElements(value: Value, json: JsonParser)
    requires Present(value) && Decoded(value, json).Parsed? && Decoded(value, json).value.Arr?
    ensures ParseValues(value, json).Uploads?
    ensures forall x :: x in ParseValues(value, json).values <==> x in Decoded(value, json).value.elems && Present(x)
  {
    WrapArray(Decoded(value, json).value.elems);
  }

  /** `{}`, `[]` and `""`, as values or as JSON text, give no uploads. */
  lemma EmptyInputsGiveNothing(value: Value, json: JsonParser)
    requires value == Hash(map[]) || value == Arr([]) || value == Str("") || value == Nil
          || (value.Str? && (json(value.s) == Parsed(Hash(map[])) || json(value.s) == Parsed(Arr([]))
                             || json(value.s) == Parsed(Str(""))))
    ensures ParseValues(value, json) == Uploads([])
  {
  }

  /**
   * A present hash is one upload, its OpenStruct, unless the struct is blank
   * or has a `to_ary` key: then `Array.wrap` takes that field's array, wraps
   * the struct for a nil or false field, and returns any other field as it is.
   */
  lemma HashIsOneUpload(entries: map<string, Value>, json: JsonParser)
    requires |entries| > 0
    ensures "to_ary" !in entries ==>
              ParseValues(Hash(entries), json) == Uploads(if Present(Struct(entries)) then [Struct(entries)] else [])
    ensures "to_ary" in entries && !Truthy(entries["to_ary"]) ==>
              ParseValues(Hash(entries), json) == Uploads(if Present(Struct(entries)) then [Struct(entries)] else [])
    ensures "to_ary" in entries && entries["to_ary"].Arr? ==>
              ParseValues(Hash(entries), json) == Uploads(RejectBlank(entries["to_ary"].elems))
    ensures "to_ary" in entries && Truthy(entries["to_ary"]) && !entries["to_ary"].Arr? ==>
              ParseValues(Hash(entries), json) == Raised(NoMethodError("reject"))
  {
    var o := Struct(entries);
    assert RejectBlank([o]) == (if Present(o) then [o] else []) by {
      assert [o][1..] == [];
    }
  }

  /** The JSON text `{"to_ary": []}` names no uploads, so nothing is checked. */
  lemma EmptyToAryGivesNothing(text: string, attribute: string, opts: Options, json: JsonParser)
    requires Present(Str(text)) && json(text) == Parsed(Hash(map["to_ary" := Arr([])]))
    ensures ParseValues(Str(text), json) == Uploads([])
    ensures ValidateEach(attribute, Str(text), opts, json) == Ok([])
  {
    HashIsOneUpload(map["to_ary" := Arr([])], json);
  }

  /**
   * `validate_each`: `:invalid` alone for malformed JSON, no errors for no
   * uploads, otherwise the errors of each given option in `CHECKS` order.
   */
  function ValidateEach(attribute: string, value: Value, opts: Options, json: JsonParser): (r: Result<seq<Entry>, RubyError>)
    ensures ParseValues(value, json).Malformed? ==> r == Ok([Entry(attribute, "invalid")])
    ensures ParseValues(value, json) == Uploads([]) ==> r == Ok([])
    ensures ParseValues(value, json).Raised? ==> r == Err(ParseValues(value, json).error)
  {
    match ParseValues(value, json)
    case Malformed => Ok([Entry(attribute, "invalid")])
    case Raised(e) => Err(e)
    case Uploads(vs) => if |vs| == 0 then Ok([]) else CheckAll(attribute, vs, opts, Checks)
  }

  /**
   * The errors of a run that completes: exactly one `file_size_is_<option>`
   * per given option that some upload violates, nothing else.
   */
  lemma ValidateEachCounts(attribute: string, value: Value, opts: Options, json: JsonParser, c: Check)
    requires ParseValues(value, json).Uploads? && |ParseValues(value, json).values| > 0
    requires ValidateEach(attribute, value, opts, json).Ok?
    ensures Count(ValidateEach(attribute, value, opts, json).value, attribute, ErrorKey(c)) ==
              if c in opts && Violated(ParseValues(value, json).values, c, opts[c]) then 1 else 0
    ensures forall e :: e in ValidateEach(attribute, value, opts, json).value ==>
              e.attribute == attribute && exists d :: d in opts && e.key == ErrorKey(d)
  {
    CheckAllCounts(attribute, ParseValues(value, json).values, opts, Checks, c);
    CheckAllKeys(attribute, ParseValues(value, json).values, opts, Checks);
  }

  /** Two present uploads in an array are the two uploads. */
  lemma ParseTwoUploads(a: Value, b: Value, json: JsonParser)
    requires Present(a) && Present(b)
    ensures ParseValues(Arr([a, b]), json) == Uploads([a, b])
  {
    var vs := [a, b];
    assert !Blank(Arr(vs));
    WrapArray(vs);
    assert RejectBlank([b]) == [b] by {
      assert [b][1..] == [];
    }
    assert RejectBlank(vs) == vs by {
      assert vs[1..] == [b];
      assert [a] + [b] == vs;
    }
  }

  /** With `greater_than` alone, a violating upload gives one error. */
  lemma CheckAllGreaterThan(attribute: string, vs: seq<Value>, n: int)
    requires |vs| > 0 && Verdict(vs[0], GreaterThan, Number(n)) == Ok(false)
    ensures CheckAll(attribute, vs, map[GreaterThan := Given(Number(n))], Checks) == Ok([Entry(attribute, ErrorKey(GreaterThan))])
  {
    var opts := map[GreaterThan := Given(Number(n))];
    var e := [Entry(attribute, ErrorKey(GreaterThan))];
    var nothing: seq<Entry> := [];
    assert Violated(vs, GreaterThan, opts[GreaterThan]) by {
      assert Verdict(vs[0], GreaterThan, BoundOf(opts[GreaterThan])) == Ok(false);
    }
    assert CheckAll(attribute, vs, opts, [GreaterThanOrEqualTo]) == Ok([]) by {
      assert OptionErrors(attribute, vs, opts, GreaterThanOrEqualTo) == Ok([]);
      assert [GreaterThanOrEqualTo][1..] == [];
      assert nothing + nothing == nothing;
    }
    assert CheckAll(attribute, vs, opts, [GreaterThan, GreaterThanOrEqualTo]) == Ok(e) by {
      assert OptionErrors(attribute, vs, opts, GreaterThan) == Ok(e);
      assert [GreaterThan, GreaterThanOrEqualTo][1..] == [GreaterThanOrEqualTo];
      assert e + nothing == e;
    }
    assert CheckAll(attribute, vs, opts, Checks[2..]) == Ok(e) by {
      assert OptionErrors(attribute, vs, opts, LessThanOrEqualTo) == Ok([]);
      assert Checks[2..][1..] == [GreaterThan, GreaterThanOrEqualTo];
      assert nothing + e == e;
    }
    assert CheckAll(attribute, vs, opts, Checks[1..]) == Ok(e) by {
      assert OptionErrors(attribute, vs, opts, LessThan) == Ok([]);
      assert Checks[1..][1..] == Checks[2..];
      assert nothing + e == e;
    }
    assert OptionErrors(attribute, vs, opts, In) == Ok([]);
    assert nothing + e == e;
  }

  /** Two uploads that both fail `greater_than` give a single error. */
  lemma TwoViolationsOneError(attribute: string, a: Value, b: Value, n: int, json: JsonParser)
    requires Verdict(a, GreaterThan, Number(n)) == Ok(false) && Verdict(b, GreaterThan, Number(n)) == Ok(false)
    requires Present(a) && Present(b)
    ensures ValidateEach(attribute, Arr([a, b]), map[GreaterThan := Given(Number(n))], json)
              == Ok([Entry(attribute, ErrorKey(GreaterThan))])
  {
    ParseTwoUploads(a, b, json);
    CheckAllGreaterThan(attribute, [a, b], n);
  }
}

=== FILE: media_type_spoof_detector.dfy ===
/**
 * Utils::MediaTypeSpoofDetector: a claimed content type is spoofed when the
 * file name has an extension and none of the media types the catalogue
 * registers for that name equals the claimed type's media type.
 */
module MediaTypeSpoofDetector {
  import opened Wrappers
  import opened RubyStrings
  import opened MediaTypes
  import opened RubyValues

  /** `has_extension?`: `file_name.split('.').length > 1`. */
  predicate HasExtension(fileName: string) {
    |Split(fileName, '.')| > 1
  }

  /** A name has an extension exactly when some `.` is followed, later, by a character other than `.`. */
  lemma HasExtensionIff(fileName: string)
    ensures HasExtension(fileName) <==> SeparatorThenText(fileName, {'.'})
  {
    SplitManyIff(fileName, '.');
  }

  /** A `.` directly followed by another character is an extension. */
  lemma DotBeforeText(fileName: string, i: nat)
    requires i + 1 < |fileName| && fileName[i] == '.' && fileName[i + 1] != '.'
    ensures HasExtension(fileName)
  {
    HasExtensionIff(fileName);
    assert fileName[i] in {'.'} && fileName[i + 1] !in {'.'};
  }

  /** `supplied_media_types`: the media types registered for the name. */
  function SuppliedMediaTypes(fileName: string, catalog: Catalog): (r: seq<string>)
    ensures |r| == |catalog(fileName)|
    ensures forall i :: 0 <= i < |r| ==> r[i] == catalog(fileName)[i].mediaType
  {
    MediaTypesOf(catalog(fileName))
  }

  /** `detected_media_type`: `content_type.split('/').first`, nil for a content type of slashes only. */
  function DetectedMediaType(contentType: string): (r: Option<string>)
    ensures r.None? <==> AllIn(contentType, {'/'})
    ensures r.Some? ==> r.value == contentType[..FirstIndex(contentType, {'/'})]
  {
    SplitEmptyIff(contentType, '/');
    SplitFieldsPlain(contentType, '/');
    if |Split(contentType, '/')| > 0 then
      SplitFirst(contentType, '/');
      First(Split(contentType, '/'))
    else
      First(Split(contentType, '/'))
  }

  /** `media_type_mismatch?`: no supplied media type equals the detected one (a string never equals nil). */
  predicate MediaTypeMismatch(contentType: string, supplied: seq<string>) {
    forall i :: 0 <= i < |supplied| ==> Some(supplied[i]) != DetectedMediaType(contentType)
  }

  /** `spoofed?`. */
  predicate Spoofed(contentType: string, fileName: string, catalog: Catalog) {
    HasExtension(fileName) && MediaTypeMismatch(contentType, SuppliedMediaTypes(fileName, catalog))
  }

  /**
   * `spoofed?` when the content type may be nil. `and` stops at a name
   * without an extension, and `none?` over no supplied media types never runs
   * its block, so a nil content type raises NoMethodError on `split` only for
   * a name with an extension the catalogue knows.
   */
  function SpoofedOption(contentType: Option<string>, fileName: string, catalog: Catalog): (r: Result<bool, RubyError>)
    ensures contentType.Some? ==> r == Ok(Spoofed(contentType.value, fileName, catalog))
    ensures contentType.None? ==> (r.Err? <==> HasExtension(fileName) && |catalog(fileName)| > 0)
    ensures contentType.None? && r.Ok? ==> r.value == HasExtension(fileName)
    ensures r.Err? ==> r.error == NoMethodError("split")
  {
    match contentType
    case Some(ct) => Ok(Spoofed(ct, fileName, catalog))
    case None =>
      if !HasExtension(fileName) then Ok(false)
      else if |SuppliedMediaTypes(fileName, catalog)| == 0 then Ok(true)
      else Err(NoMethodError("split"))
  }

  /** A nil content type for the dotless name `sample` is not spoofed and raises nothing. */
  lemma NilForPlainNameIsNotSpoofed(fileName: string, catalog: Catalog)
    requires fileName == "sample"
    ensures SpoofedOption(None, fileName, catalog) == Ok(false)
  {
    assert forall i :: 0 <= i < |fileName| ==> fileName[i] != '.';
    HasExtensionIff(fileName);
  }

  /**
   * Spoofed exactly when the name has an extension and the content type's
   * prefix before its first `/` is none of the supplied media types (or the
   * content type has no such prefix at all).
   */
  lemma SpoofedIff(contentType: string, fileName: string, catalog: Catalog)
    ensures Spoofed(contentType, fileName, catalog) <==>
              SeparatorThenText(fileName, {'.'}) &&
              (AllIn(contentType, {'/'}) ||
               forall m :: m in SuppliedMediaTypes(fileName, catalog) ==> m != contentType[..FirstIndex(contentType, {'/'})])
  {
    HasExtensionIff(fileName);
    var supplied := SuppliedMediaTypes(fileName, catalog);
    if forall m :: m in supplied ==> m != contentType[..FirstIndex(contentType, {'/'})] {
      assert forall i :: 0 <= i < |supplied| ==> supplied[i] in supplied;
    }
    if MediaTypeMismatch(contentType, supplied) && !AllIn(contentType, {'/'}) {
      forall m | m in supplied
        ensures m != contentType[..FirstIndex(contentType, {'/'})]
      {
        var i :| 0 <= i < |supplied| && supplied[i] == m;
      }
    }
  }

  /** An empty name, or any name without a dot, is never spoofed. */
  lemma DotlessNeverSpoofed(contentType: string, fileName: string, catalog: Catalog)
    requires NoneIn(fileName, {'.'})
    ensures !Spoofed(contentType, fileName, catalog)
  {
    HasExtensionIff(fileName);
  }

  /** An extension the catalogue does not know is always reported as spoofed. */
  lemma UnknownExtensionSpoofed(contentType: string, fileName: string, catalog: Catalog)
    requires HasExtension(fileName) && catalog(fileName) == []
    ensures Spoofed(contentType, fileName, catalog)
  {
  }

  /** With one registered type, spoofed means its media type differs from the claimed one. */
  lemma SpoofedOneSupplied(contentType: string, fileName: string, catalog: Catalog, t: MimeType)
    requires HasExtension(fileName) && catalog(fileName) == [t]
    ensures Spoofed(contentType, fileName, catalog) <==> Some(t.mediaType) != DetectedMediaType(contentType)
  {
    assert SuppliedMediaTypes(fileName, catalog) == [t.mediaType];
  }

  /** The media type is the text before the first `/`. */
  lemma MediaTypeBeforeSlash(contentType: string, k: nat)
    requires 0 < k < |contentType| && contentType[k] == '/' && forall i :: 0 <= i < k ==> contentType[i] != '/'
    ensures DetectedMediaType(contentType) == Some(contentType[..k])
  {
    assert contentType[0] !in {'/'};
    assert FirstIndex(contentType, {'/'}) == k;
  }

  /** `image/jpeg` for `sample.html`, registered as `text/html`: spoofed. */
  lemma JpegNamedHtmlIsSpoofed(contentType: string, fileName: string, catalog: Catalog)
    requires contentType == "image/jpeg" && fileName == "sample.html"
    requires catalog(fileName) == [MimeType("text/html", "text")]
    ensures Spoofed(contentType, fileName, catalog)
  {
    DotBeforeText(fileName, 6);
    MediaTypeBeforeSlash(contentType, 5);
    SpoofedOneSupplied(contentType, fileName, catalog, MimeType("text/html", "text"));
  }

  /** `image/png` for `sample.jpg`, registered as `image/jpeg`: same family, not spoofed. */
  lemma PngNamedJpgIsNotSpoofed(contentType: string, fileName: string, catalog: Catalog)
    requires contentType == "image/png" && fileName == "sample.jpg"
    requires catalog(fileName) == [MimeType("image/jpeg", "image")]
    ensures !Spoofed(contentType, fileName, catalog)
  {
    DotBeforeText(fileName, 6);
    assert DetectedMediaType(contentType) == Some("image") by {
      MediaTypeBeforeSlash(contentType, 5);
      assert contentType[..5] == "image";
    }
    SpoofedOneSupplied(contentType, fileName, catalog, MimeType("image/jpeg", "image"));
  }

  /** `text/plain` for `sample.txt`, registered as `text/plain`: not spoofed. */
  lemma TextNamedTxtIsNotSpoofed(contentType: string, fileName: string, catalog: Catalog)
    requires contentType == "text/plain" && fileName == "sample.txt"
    requires catalog(fileName) == [MimeType("text/plain", "text")]
    ensures !Spoofed(contentType, fileName, catalog)
  {
    var t := catalog(fileName)[0];
    assert catalog(fileName) == [t] && t.mediaType == contentType[..4] by {
      assert contentType[..4] == "text";
    }
    assert HasExtension(fileName) by {
      DotBeforeText(fileName, 6);
    }
    assert contentType[4] == '/' && forall i :: 0 <= i < 4 ==> contentType[i] != '/';
    MediaTypeBeforeSlash(contentType, 4);
    SpoofedOneSupplied(contentType, fileName, catalog, t);
  }

  /** No name, or the dotless name `sample`: not spoofed. */
  lemma NamelessOrPlainIsNotSpoofed(contentType: string, fileName: string, catalog: Catalog)
    requires fileName == "" || fileName == "sample"
    ensures !Spoofed(contentType, fileName, catalog)
  {
    assert forall i :: 0 <= i < |fileName| ==> fileName[i] != '.';
    DotlessNeverSpoofed(contentType, fileName, catalog);
  }
}

=== FILE: media_types.dfy ===
/**
 * Media types and the extension catalogue (the MIME::Types gem), which the
 * detectors consult but which is not part of this model: `type_for`/`of` is
 * an uninterpreted function from a file name to its registered types.
 */
module MediaTypes {

  /** The fallback for content whose type cannot be determined. */
  const SensibleDefault: string := "application/octet-stream"

  /** The type reported for a zero-byte file. */
  const EmptyType: string := "inode/x-empty"

  /** One registered type as MIME::Types reports it: `content_type` (`image/jpeg`) and `media_type` (`image`). */
  datatype MimeType = MimeType(contentType: string, mediaType: string)

  /** `MIME::Types.type_for(name)`: the registered types for the extension of `name`, possibly none. */
  type Catalog = string -> seq<MimeType>

  /** `types.collect(&:content_type)`. */
  function ContentTypes(ts: seq<MimeType>): (r: seq<string>)
    ensures |r| == |ts|
    ensures forall i :: 0 <= i < |ts| ==> r[i] == ts[i].contentType
  {
    if |ts| == 0 then [] else [ts[0].contentType] + ContentTypes(ts[1..])
  }

  /** `types.collect(&:media_type)`. */
  function MediaTypesOf(ts: seq<MimeType>): (r: seq<string>)
    ensures |r| == |ts|
    ensures forall i :: 0 <= i < |ts| ==> r[i] == ts[i].mediaType
  {
    if |ts| == 0 then [] else [ts[0].mediaType] + MediaTypesOf(ts[1..])
  }
}

=== FILE: mime_type_analyzer.dfy ===
/**
 * FileValidators::MimeTypeAnalyzer: determines the MIME type of an IO with
 * one of seven tools chosen at construction. The tools themselves (FastImage,
 * the `file` command, FileMagic, MimeMagic, Marcel, MIME::Types, MiniMime)
 * are not part of this model: each is a function of what it is given.
 */
module MimeTypeAnalyzer {
  import opened Wrappers
  import opened Bytes
  import opened RubyStrings
  import opened RubyPaths
  import opened MediaTypes

  /** The seven supported analyzers. */
  datatype Tool = FastImage | File | FileMagic | MimeMagic | Marcel | MimeTypes | MiniMime

  /** `SUPPORTED_TOOLS`, in its order. */
  const SupportedTools: seq<Tool> := [FastImage, File, FileMagic, MimeMagic, Marcel, MimeTypes, MiniMime]

  /** `MAGIC_NUMBER`: how much FileMagic is given to look at. */
  const MagicNumber: nat := 256 * 1024

  /** The symbol naming each tool. */
  function ToolName(t: Tool): string {
    match t
    case FastImage => "fastimage"
    case File => "file"
    case FileMagic => "filemagic"
    case MimeMagic => "mimemagic"
    case Marcel => "marcel"
    case MimeTypes => "mime_types"
    case MiniMime => "mini_mime"
  }

  /** `FileValidators::Error` with its message, or a TypeError raised on the way. */
  datatype Error = Error(message: string) | TypeError

  function ToolNames(ts: seq<Tool>): (r: seq<string>)
    ensures |r| == |ts|
    ensures forall i :: 0 <= i < |ts| ==> r[i] == ToolName(ts[i])
  {
    if |ts| == 0 then [] else [ToolName(ts[0])] + ToolNames(ts[1..])
  }

  /** The message for an unknown analyzer: the symbol as `inspect` shows it, then the supported names. */
  function UnknownToolMessage(name: string): string {
    "unknown mime type analyzer :" + name + ", supported analyzers are: " + Join(ToolNames(SupportedTools), ',')
  }

  /** The first tool of `ts` called `name`. */
  function Lookup(ts: seq<Tool>, name: string): (r: Option<Tool>)
    ensures r.Some? ==> r.value in ts && ToolName(r.value) == name
    ensures r.None? ==> forall t :: t in ts ==> ToolName(t) != name
  {
    if |ts| == 0 then None
    else if ToolName(ts[0]) == name then Some(ts[0])
    else Lookup(ts[1..], name)
  }

  /** Every tool is supported. */
  lemma AllToolsSupported(t: Tool)
    ensures t in SupportedTools
  {
  }

  /** `initialize(tool)`: the named analyzer, or an Error for a name outside `SUPPORTED_TOOLS`. */
  function New(name: string): (r: Result<Tool, Error>)
    ensures r.Ok? <==> exists t: Tool :: ToolName(t) == name
    ensures r.Ok? ==> ToolName(r.value) == name
    ensures r.Err? ==> r.error == Error(UnknownToolMessage(name))
  {
    match Lookup(SupportedTools, name)
    case Some(t) => Ok(t)
    case None =>
      assert forall t: Tool :: ToolName(t) != name by {
        forall t: Tool ensures ToolName(t) != name {
          AllToolsSupported(t);
        }
      }
      Err(Error(UnknownToolMessage(name)))
  }

  /** The name of a tool constructs that tool. */
  lemma NewOfToolName(t: Tool)
    ensures New(ToolName(t)) == Ok(t)
  {
    var r := New(ToolName(t));
    assert r.Ok?;
    ToolNameInjective(r.value, t);
  }

  /** No two tools share a name: length, second and third letters already tell them apart. */
  lemma ToolNameInjective(a: Tool, b: Tool)
    requires ToolName(a) == ToolName(b)
    ensures a == b
  {
    var n, m := ToolName(a), ToolName(b);
    assert |n| == |m| && n[1] == m[1] && n[2] == m[2];
  }

  /** `:invalid` is not an analyzer. */
  lemma InvalidToolRejected(name: string)
    requires name == "invalid"
    ensures New(name).Err?
  {
    forall t: Tool ensures ToolName(t) != name {
      assert ToolName(t)[0] != 'v' || |ToolName(t)| != 7;
    }
  }

  /**
   * A reader method the IO may or may not respond to (`original_filename`,
   * `path`), and what it returns when it does.
   */
  datatype Reader = Undefined | Defined(value: Option<string>)

  /** An IO: its contents, its position, and its optional filename readers. */
  datatype IO = IO(bytes: Bytes, pos: nat, originalFilename: Reader, path: Reader)

  /** `io.eof?`. */
  predicate Eof(io: IO) {
    io.pos >= |io.bytes|
  }

  /** What a reader from the current position sees. */
  function Remaining(io: IO): (r: Bytes)
    ensures Eof(io) <==> r == []
    ensures !Eof(io) ==> r == io.bytes[io.pos..]
  {
    if Eof(io) then [] else io.bytes[io.pos..]
  }

  /** `io.rewind`: back to position 0, nothing else changes. */
  function Rewind(io: IO): (r: IO)
    ensures r.pos == 0
    ensures r.bytes == io.bytes && r.originalFilename == io.originalFilename && r.path == io.path
  {
    io.(pos := 0)
  }

  /** `io.read(MAGIC_NUMBER)`: at most that many bytes from the current position. */
  function MagicWindow(io: IO): (r: Bytes)
    ensures |r| <= MagicNumber
    ensures r <= Remaining(io)
    ensures |Remaining(io)| <= MagicNumber ==> r == Remaining(io)
  {
    var rest := Remaining(io);
    if |rest| <= MagicNumber then rest else rest[..MagicNumber]
  }

  /** How running `file --mime-type --brief -` ended: not found (ENOENT), or with a status and its output. */
  datatype ProcessOutcome = Enoent | Exited(status: Option<bool>, stdout: string, stderr: string)

  /** The seven tools, each as a function of what it is given. */
  datatype Libraries = Libraries(
    fastImage: Bytes -> Option<string>,
    fileProcess: Bytes -> ProcessOutcome,
    fileMagic: Bytes -> string,
    mimeMagic: Bytes -> Option<string>,
    marcel: Bytes -> string,
    mimeTypes: Catalog,
    miniMime: string -> Option<string>)

  const NotInstalled: string := "file command-line tool is not installed"

  /** `extract_with_file`: nil for an IO at its end, otherwise the stripped output or an Error. */
  function ExtractWithFile(io: IO, lib: Libraries): Result<Option<string>, Error> {
    if Eof(io) then Ok(None)
    else match lib.fileProcess(Remaining(io))
      case Enoent => Err(Error(NotInstalled))
      case Exited(None, _, err) => Err(Error("file command failed to spawn: " + err))
      case Exited(Some(false), _, err) => Err(Error("file command failed: " + err))
      case Exited(Some(true), out, _) => Ok(Some(Strip(out)))
  }

  /** `extract_with_fastimage`: the image kind as `image/<kind>`, nil when FastImage finds none. */
  function ExtractWithFastImage(io: IO, lib: Libraries): Option<string> {
    match lib.fastImage(Remaining(io))
    case None => None
    case Some(t) => Some("image/" + t)
  }

  /** `extract_with_filemagic`: nil at the end, otherwise FileMagic's answer on the magic window. */
  function ExtractWithFileMagic(io: IO, lib: Libraries): Option<string> {
    if Eof(io) then None else Some(lib.fileMagic(MagicWindow(io)))
  }

  /** `extract_with_mimemagic`. */
  function ExtractWithMimeMagic(io: IO, lib: Libraries): Option<string> {
    lib.mimeMagic(Remaining(io))
  }

  /** `extract_with_marcel`: nil at the end, otherwise Marcel's answer. */
  function ExtractWithMarcel(io: IO, lib: Libraries): Option<string> {
    if Eof(io) then None else Some(lib.marcel(Remaining(io)))
  }

  /**
   * `extract_filename`: `original_filename` when the IO has it, else the
   * basename of `path` when it has that (a nil path raises TypeError in
   * `File.basename`), else nil.
   */
  function ExtractFilename(io: IO): (r: Result<Option<string>, Error>)
    ensures io.originalFilename.Defined? ==> r == Ok(io.originalFilename.value)
    ensures io.originalFilename.Undefined? && io.path.Defined? && io.path.value.Some? ==>
              r == Ok(Some(Basename(io.path.value.value)))
    ensures io.originalFilename.Undefined? && io.path == Defined(None) ==> r == Err(TypeError)
    ensures io.originalFilename.Undefined? && io.path.Undefined? ==> r == Ok(None)
  {
    match io.originalFilename
    case Defined(name) => Ok(name)
    case Undefined =>
      match io.path
      case Defined(Some(p)) => Ok(Some(Basename(p)))
      case Defined(None) => Err(TypeError)
      case Undefined => Ok(None)
  }

  /** `extract_with_mime_types`: the first registered content type for the filename. */
  function ExtractWithMimeTypes(io: IO, lib: Libraries): Result<Option<string>, Error> {
    var filename :- ExtractFilename(io);
    match filename
    case None => Ok(None)
    case Some(f) =>
      match First(lib.mimeTypes(f))
      case None => Ok(None)
      case Some(t) => Ok(Some(t.contentType))
  }

  /** `extract_with_mini_mime`: MiniMime's content type for the filename. */
  function ExtractWithMiniMime(io: IO, lib: Libraries): Result<Option<string>, Error> {
    var filename :- ExtractFilename(io);
    match filename
    case None => Ok(None)
    case Some(f) => Ok(lib.miniMime(f))
  }

  /** `send(:"extract_with_#{@tool}", io)`. */
  function Extract(tool: Tool, io: IO, lib: Libraries): Result<Option<string>, Error> {
    match tool
    case FastImage => Ok(ExtractWithFastImage(io, lib))
    case File => ExtractWithFile(io, lib)
    case FileMagic => Ok(ExtractWithFileMagic(io, lib))
    case MimeMagic => Ok(ExtractWithMimeMagic(io, lib))
    case Marcel => Ok(ExtractWithMarcel(io, lib))
    case MimeTypes => ExtractWithMimeTypes(io, lib)
    case MiniMime => ExtractWithMiniMime(io, lib)
  }

  /** The MIME type found and the IO afterwards. */
  datatype Analysis = Analysis(mimeType: Option<string>, io: IO)

  /**
   * `call(io)`: the tool's answer, with the IO rewound to position 0 and
   * otherwise unchanged. An Error from the tool propagates.
   */
  function Call(tool: Tool, io: IO, lib: Libraries): (r: Result<Analysis, Error>)
    ensures r.Ok? ==> r.value.io.pos == 0
    ensures r.Ok? ==> r.value.io.bytes == io.bytes && r.value.io.originalFilename == io.originalFilename
                      && r.value.io.path == io.path
    ensures r.Err? <==> Extract(tool, io, lib).Err?
  {
    var mime :- Extract(tool, io, lib);
    Ok(Analysis(mime, Rewind(io)))
  }

  /** Calling again on the rewound IO gives the same answer and the same IO. */
  lemma CallIdempotent(tool: Tool, io: IO, lib: Libraries)
    requires io.pos == 0 && Call(tool, io, lib).Ok?
    ensures Call(tool, Call(tool, io, lib).value.io, lib) == Call(tool, io, lib)
  {
    assert Call(tool, io, lib).value.io == io;
  }

  /** `file`, `filemagic` and `marcel` answer nil for an IO at its end without running the tool. */
  lemma EofShortCircuits(tool: Tool, io: IO, lib1: Libraries, lib2: Libraries)
    requires tool == File || tool == FileMagic || tool == Marcel
    requires Eof(io)
    ensures Call(tool, io, lib1) == Ok(Analysis(None, Rewind(io)))
    ensures Call(tool, io, lib1) == Call(tool, io, lib2)
  {
  }

  /** `fastimage` answers exactly when FastImage recognises an image kind, and then with `image/<kind>`. */
  lemma FastImageWraps(io: IO, lib: Libraries)
    ensures Call(FastImage, io, lib).Ok?
    ensures Call(FastImage, io, lib).value.mimeType.Some? <==> lib.fastImage(Remaining(io)).Some?
    ensures lib.fastImage(Remaining(io)).Some? ==>
              Call(FastImage, io, lib).value.mimeType == Some("image/" + lib.fastImage(Remaining(io)).value)
    ensures Call(FastImage, io, lib).value.mimeType.Some? ==> "image/" <= Call(FastImage, io, lib).value.mimeType.value
  {
  }

  /**
   * `mime_types` and `mini_mime` look only at the filename readers: two IOs
   * with the same readers get the same answer whatever their contents and
   * positions, and no readers at all means nil.
   */
  lemma FilenameOnly(tool: Tool, io1: IO, io2: IO, lib: Libraries)
    requires tool == MimeTypes || tool == MiniMime
    requires io1.originalFilename == io2.originalFilename && io1.path == io2.path
    ensures Extract(tool, io1, lib) == Extract(tool, io2, lib)
    ensures io1.originalFilename.Undefined? && io1.path.Undefined? ==> Call(tool, io1, lib) == Ok(Analysis(None, Rewind(io1)))
  {
  }

  /**
   * The other five tools look only at the bytes from the current position:
   * two IOs with the same remaining bytes get the same answer whatever their
   * filename readers.
   */
  lemma ContentOnly(tool: Tool, io1: IO, io2: IO, lib: Libraries)
    requires tool != MimeTypes && tool != MiniMime
    requires Remaining(io1) == Remaining(io2)
    ensures Extract(tool, io1, lib) == Extract(tool, io2, lib)
  {
    assert Eof(io1) <==> Eof(io2);
    assert MagicWindow(io1) == MagicWindow(io2);
  }

  /** Away from the end, `mimemagic` gives MimeMagic's answer and `marcel` Marcel's, on the remaining bytes. */
  lemma ContentToolAnswers(io: IO, lib: Libraries)
    requires !Eof(io)
    ensures Call(MimeMagic, io, lib) == Ok(Analysis(lib.mimeMagic(io.bytes[io.pos..]), Rewind(io)))
    ensures Call(Marcel, io, lib) == Ok(Analysis(Some(lib.marcel(io.bytes[io.pos..])), Rewind(io)))
  {
  }

  /** An empty IO named `image.png` is `image/png` to `mime_types` when the catalogue says so. */
  lemma MimeTypesOfEmptyNamedIO(io: IO, lib: Libraries)
    requires io.bytes == [] && io.originalFilename == Defined(Some("image.png"))
    requires lib.mimeTypes("image.png") == [MimeType("image/png", "image")]
    ensures Call(MimeTypes, io, lib) == Ok(Analysis(Some("image/png"), Rewind(io)))
  {
  }

  /** The four ways the `file` command can end, for an IO that is not at its end. */
  lemma FileOutcomes(io: IO, lib: Libraries)
    requires !Eof(io)
    ensures lib.fileProcess(Remaining(io)) == Enoent ==> Call(File, io, lib) == Err(Error(NotInstalled))
    ensures lib.fileProcess(Remaining(io)).Exited? && lib.fileProcess(Remaining(io)).status.None? ==>
              Call(File, io, lib) == Err(Error("file command failed to spawn: " + lib.fileProcess(Remaining(io)).stderr))
    ensures lib.fileProcess(Remaining(io)).Exited? && lib.fileProcess(Remaining(io)).status == Some(false) ==>
              Call(File, io, lib) == Err(Error("file command failed: " + lib.fileProcess(Remaining(io)).stderr))
    ensures lib.fileProcess(Remaining(io)).Exited? && lib.fileProcess(Remaining(io)).status == Some(true) ==>
              Call(File, io, lib) == Ok(Analysis(Some(Strip(lib.fileProcess(Remaining(io)).stdout)), Rewind(io)))
  {
  }

  /** A successful `file` answer carries no surrounding whitespace. */
  lemma FileAnswerStripped(io: IO, lib: Libraries)
    requires Call(File, io, lib).Ok? && Call(File, io, lib).value.mimeType.Some?
    ensures var m := Call(File, io, lib).value.mimeType.value;
            m == "" || (m[0] !in StripSpace && m[|m| - 1] !in StripSpace)
  {
  }

  /** FileMagic sees at most `MAGIC_NUMBER` bytes, read from the current position. */
  lemma FileMagicWindow(io: IO, lib: Libraries)
    requires !Eof(io)
    ensures Call(FileMagic, io, lib) == Ok(Analysis(Some(lib.fileMagic(MagicWindow(io))), Rewind(io)))
    ensures |MagicWindow(io)| <= MagicNumber && MagicWindow(io) <= io.bytes[io.pos..]
  {
  }
}

=== FILE: ruby_paths.dfy ===
/**
 * Ruby's `File.extname` and `File.basename` on POSIX paths (`/` is the only
 * separator), built on the last non-empty path component, which is also what
 * `path.split("/").last` returns.
 */
module RubyPaths {
  import opened Wrappers
  import opened RubyStrings

  /** `path.split("/").last`: the last non-empty component, nil for an empty or all-slash path. */
  function LastComponent(path: string): (r: Option<string>)
    ensures r.None? <==> AllIn(path, {'/'})
    ensures r.Some? ==> r.value != "" && NoneIn(r.value, {'/'})
  {
    SplitEmptyIff(path, '/');
    SplitFieldsPlain(path, '/');
    Last(Split(path, '/'))
  }

  /** A component name after a directory prefix is the last component. */
  lemma LastComponentAfter(dir: string, name: string)
    requires name != "" && NoneIn(name, {'/'})
    ensures LastComponent(dir + "/" + name) == Some(name)
  {
    SplitEndsWith(dir, '/', name);
  }

  /** A slash-free name is its own last component. */
  lemma LastComponentPlain(name: string)
    requires name != "" && NoneIn(name, {'/'})
    ensures LastComponent(name) == Some(name)
  {
    SplitPlain(name, '/');
  }

  /** The component without its leading dots: `File.extname` skips them before looking for a dot. */
  function DropLeadingDots(c: string): (r: string)
    ensures |r| <= |c| && r == c[|c| - |r|..]
    ensures r == "" || r[0] != '.'
    ensures AllIn(c[..|c| - |r|], {'.'})
  {
    if |c| > 0 && c[0] == '.' then
      var r := DropLeadingDots(c[1..]);
      DotPrefixExtends(c, |c| - |r|);
      r
    else c
  }

  /** A dot followed by a run of dots in the rest is a run of dots, and the suffixes agree. */
  lemma DotPrefixExtends(c: string, k: nat)
    requires 0 < k <= |c| && c[0] == '.' && AllIn(c[1..][..k - 1], {'.'})
    ensures AllIn(c[..k], {'.'}) && c[1..][k - 1..] == c[k..]
  {
    assert forall i :: 0 < i < k ==> c[i] == c[1..][..k - 1][i - 1];
  }

  /** The index of the last dot of `r`, nil when `r` has none. */
  function LastDot(r: string): (e: Option<nat>)
    ensures e.Some? ==> e.value < |r| && r[e.value] == '.' && forall j :: e.value < j < |r| ==> r[j] != '.'
    ensures e.None? ==> NoneIn(r, {'.'})
  {
    if |r| == 0 then None
    else if r[|r| - 1] == '.' then Some(|r| - 1)
    else LastDot(r[..|r| - 1])
  }

  /**
   * Ruby's `File.extname(path)` (Ruby 2.7 and later on POSIX): from the last
   * dot of the last component that is not one of its leading dots; `"."` when
   * that dot ends the name; `""` when there is no such dot.
   */
  function ExtName(path: string): (x: string)
    ensures x == "" || x[0] == '.'
    ensures forall k :: 1 <= k < |x| ==> x[k] != '.'
    ensures LastComponent(path).None? ==> x == ""
    ensures LastComponent(path).Some? ==> |x| <= |LastComponent(path).value|
  {
    match LastComponent(path)
    case None => ""
    case Some(c) =>
      var r := DropLeadingDots(c);
      match LastDot(r)
      case None => ""
      case Some(e) => if e == |r| - 1 then "." else r[e..]
  }

  /** `File.extname(path).split(".").length > 1` holds exactly when the extension has a character after its dot. */
  lemma SplitExtName(path: string)
    ensures |Split(ExtName(path), '.')| > 1 <==> |ExtName(path)| >= 2
  {
    var x := ExtName(path);
    SplitManyIff(x, '.');
    if |x| >= 2 {
      assert x[0] in {'.'} && x[1] !in {'.'};
    }
  }

  /** A component without any dot has no extension. */
  lemma ExtNameOfDotless(path: string, c: string)
    requires LastComponent(path) == Some(c) && NoneIn(c, {'.'})
    ensures ExtName(path) == ""
  {
    assert DropLeadingDots(c) == c;
  }

  /** `stem.ext`, with a stem that does not start with a dot, has extension `.ext`. */
  lemma ExtNameOf(path: string, stem: string, ext: string)
    requires LastComponent(path) == Some(stem + "." + ext)
    requires stem != "" && stem[0] != '.'
    requires ext != "" && NoneIn(ext, {'.'})
    ensures ExtName(path) == "." + ext
  {
    var c := stem + "." + ext;
    assert c[0] == stem[0];
    assert DropLeadingDots(c) == c;
    var e := LastDot(c);
    assert c[|stem|] == '.';
    assert forall j :: |stem| < j < |c| ==> c[j] == ext[j - |stem| - 1];
    assert e.Some?;
    assert e.value == |stem|;
    assert c[|stem|..] == "." + ext;
  }

  /**
   * Ruby's `File.basename(path)`: `""` for the empty path, `"/"` for a path of
   * slashes only, otherwise the last component without trailing slashes.
   */
  function Basename(path: string): (r: string)
    ensures path == "" <==> r == ""
    ensures path != "" && AllIn(path, {'/'}) ==> r == "/"
    ensures !AllIn(path, {'/'}) ==> Some(r) == LastComponent(path)
  {
    match LastComponent(path)
    case Some(c) => c
    case None => if path == "" then "" else "/"
  }
}

=== FILE: ruby_strings.dfy ===
/**
 * The few Ruby `String` operations the validators lean on, written out with
 * Ruby's semantics: `split` drops trailing empty fields (so `"".split("/")`
 * is `[]` and its `first` is nil), a regular-expression split on a run of
 * separators keeps a leading empty field, `include?` is substring search and
 * `strip` removes surrounding whitespace and NUL characters.
 */
module RubyStrings {
  import opened Wrappers

  /**
   * The raw fields of `s`: `s` cut at every character in `seps`. With n
   * separator characters there are n + 1 fields, any of which may be empty.
   */
  function Fields(s: string, seps: set<char>): (fs: seq<string>)
    ensures |fs| >= 1
    ensures forall k, j :: 0 <= k < |fs| && 0 <= j < |fs[k]| ==> fs[k][j] !in seps
    decreases |s|
  {
    if |s| == 0 then [""]
    else
      var rest := Fields(s[1..], seps);
      if s[0] in seps then [""] + rest
      else [[s[0]] + rest[0]] + rest[1..]
  }

  /** Ruby's final step of `split`: trailing empty fields are removed. */
  function DropTrailingEmpty(fs: seq<string>): (r: seq<string>)
    ensures |r| <= |fs| && r == fs[..|r|]
    ensures |r| > 0 ==> r[|r| - 1] != ""
    ensures forall k :: |r| <= k < |fs| ==> fs[k] == ""
  {
    if |fs| == 0 then []
    else if fs[|fs| - 1] == "" then DropTrailingEmpty(fs[..|fs| - 1])
    else fs
  }

  /** Ruby's `s.split(sep)` for a one-character string separator other than a space. */
  function Split(s: string, sep: char): seq<string> {
    DropTrailingEmpty(Fields(s, {sep}))
  }

  /** The fields of `fs` that are not empty, in order. */
  function NonEmpty(fs: seq<string>): (r: seq<string>)
    ensures |r| <= |fs|
    ensures forall x :: x in r <==> x in fs && x != ""
  {
    if |fs| == 0 then []
    else if fs[0] == "" then NonEmpty(fs[1..])
    else [fs[0]] + NonEmpty(fs[1..])
  }

  /**
   * Ruby's `s.split(/[c1c2...]+/)` for a character class `seps`: a maximal run
   * of separators ends a field, a leading run leaves an empty first field, and
   * trailing empty fields are removed.
   */
  function SplitOnRuns(s: string, seps: set<char>): seq<string> {
    var fs := Fields(s, seps);
    DropTrailingEmpty([fs[0]] + NonEmpty(fs[1..]))
  }

  /** Ruby's `Array#first`: nil for an empty array. */
  function First<T>(xs: seq<T>): (r: Option<T>)
    ensures r.None? <==> |xs| == 0
    ensures r.Some? ==> r.value == xs[0]
  {
    if |xs| == 0 then None else Some(xs[0])
  }

  /** Ruby's `Array#last`: nil for an empty array. */
  function Last<T>(xs: seq<T>): (r: Option<T>)
    ensures r.None? <==> |xs| == 0
    ensures r.Some? ==> r.value == xs[|xs| - 1]
  {
    if |xs| == 0 then None else Some(xs[|xs| - 1])
  }

  /** Ruby's `Array#join(sep)` with a one-character separator. */
  function Join(fs: seq<string>, sep: char): string
  {
    if |fs| == 0 then ""
    else if |fs| == 1 then fs[0]
    else fs[0] + [sep] + Join(fs[1..], sep)
  }

  /** The index of the first character of `s` in `seps`, or `|s|` when there is none. */
  function FirstIndex(s: string, seps: set<char>): (r: nat)
    ensures r <= |s|
    ensures forall i :: 0 <= i < r ==> s[i] !in seps
    ensures r < |s| ==> s[r] in seps
  {
    if |s| == 0 || s[0] in seps then 0 else 1 + FirstIndex(s[1..], seps)
  }

  ghost predicate AllIn(s: string, seps: set<char>) {
    forall i :: 0 <= i < |s| ==> s[i] in seps
  }

  ghost predicate NoneIn(s: string, seps: set<char>) {
    forall i :: 0 <= i < |s| ==> s[i] !in seps
  }

  /** Some separator in `s` is followed, somewhere later, by a non-separator. */
  ghost predicate SeparatorThenText(s: string, seps: set<char>) {
    exists i, j :: 0 <= i < j < |s| && s[i] in seps && s[j] !in seps
  }

  // ---------------------------------------------------------------------------
  // Raw fields

  /** Splitting and re-joining on one separator gives back the string. */
  lemma {:induction false} JoinFields(s: string, sep: char)
    ensures Join(Fields(s, {sep}), sep) == s
    decreases |s|
  {
    if |s| > 0 {
      var rest := Fields(s[1..], {sep});
      JoinFields(s[1..], sep);
      if s[0] == sep {
        assert Fields(s, {sep}) == [""] + rest;
        assert s == [sep] + s[1..];
      } else if |rest| == 1 {
        assert Fields(s, {sep}) == [[s[0]] + rest[0]];
        assert s == [s[0]] + s[1..];
      } else {
        var fs := Fields(s, {sep});
        assert fs == [[s[0]] + rest[0]] + rest[1..];
        assert fs[1..] == rest[1..];
        assert Join(rest, sep) == rest[0] + [sep] + Join(rest[1..], sep);
        assert s == [s[0]] + s[1..];
      }
    }
  }

  /** A non-empty string without separators is not all separators and has its first separator past the end. */
  lemma PlainHasNoFirstSeparator(s: string, seps: set<char>)
    requires s != "" && NoneIn(s, seps)
    ensures !AllIn(s, seps) && FirstIndex(s, seps) == |s| && s[..FirstIndex(s, seps)] == s
  {
    assert s[0] !in seps;
  }

  /** A string without separators is a single field. */
  lemma {:induction false} FieldsOfPlain(s: string, seps: set<char>)
    requires NoneIn(s, seps)
    ensures Fields(s, seps) == [s]
    decreases |s|
  {
    if |s| > 0 {
      FieldsOfPlain(s[1..], seps);
      assert s == [s[0]] + s[1..];
    }
  }

  /** Cutting at a separator character splits the field list in two. */
  lemma {:induction false} FieldsAppend(x: string, c: char, y: string, seps: set<char>)
    requires c in seps
    ensures Fields(x + [c] + y, seps) == Fields(x, seps) + Fields(y, seps)
    decreases |x|
  {
    var s := x + [c] + y;
    if |x| == 0 {
      assert s[1..] == y;
    } else {
      assert s[0] == x[0];
      assert s[1..] == x[1..] + [c] + y;
      FieldsAppend(x[1..], c, y, seps);
      var a, b := Fields(x[1..], seps), Fields(y, seps);
      assert Fields(s[1..], seps) == a + b;
      if x[0] in seps {
        FieldsAtSeparator(s, seps);
        FieldsAtSeparator(x, seps);
      } else {
        FieldsAtText(s, seps);
        FieldsAtText(x, seps);
        ConsHead([x[0]], a, b);
      }
    }
  }

  lemma FieldsAtSeparator(s: string, seps: set<char>)
    requires |s| > 0 && s[0] in seps
    ensures Fields(s, seps) == [""] + Fields(s[1..], seps)
  {
  }

  lemma FieldsAtText(s: string, seps: set<char>)
    requires |s| > 0 && s[0] !in seps
    ensures Fields(s, seps) == [[s[0]] + Fields(s[1..], seps)[0]] + Fields(s[1..], seps)[1..]
  {
  }

  /** Extending the first field of a non-empty list commutes with appending another list. */
  lemma ConsHead(h: string, a: seq<string>, b: seq<string>)
    requires |a| >= 1
    ensures [h + (a + b)[0]] + (a + b)[1..] == ([h + a[0]] + a[1..]) + b
  {
    assert (a + b)[0] == a[0];
    assert (a + b)[1..] == a[1..] + b;
  }

  /** Every raw field is empty exactly when every character is a separator. */
  lemma {:induction false} FieldsAllEmpty(s: string, seps: set<char>)
    ensures (forall k :: 0 <= k < |Fields(s, seps)| ==> Fields(s, seps)[k] == "") <==> AllIn(s, seps)
    decreases |s|
  {
    if |s| > 0 {
      var rest := Fields(s[1..], seps);
      var fs := Fields(s, seps);
      FieldsAllEmpty(s[1..], seps);
      if s[0] in seps {
        assert fs == [""] + rest;
        if AllIn(s[1..], seps) {
          assert forall k :: 0 <= k < |fs| ==> fs[k] == "" by {
            forall k | 0 <= k < |fs| ensures fs[k] == "" {
              if k > 0 { assert fs[k] == rest[k - 1]; }
            }
          }
          assert forall i :: 0 <= i < |s| ==> s[i] in seps by {
            forall i | 0 <= i < |s| ensures s[i] in seps {
              if i > 0 { assert s[i] == s[1..][i - 1]; }
            }
          }
        } else {
          var i :| 0 <= i < |s[1..]| && s[1..][i] !in seps;
          assert s[i + 1] !in seps;
          var k :| 0 <= k < |rest| && rest[k] != "";
          assert fs[k + 1] != "";
        }
      } else {
        assert fs[0] == [s[0]] + rest[0];
        assert fs[0] != "";
      }
    }
  }

  /** The first raw field is the text before the first separator. */
  lemma {:induction false} FieldsFirst(s: string, seps: set<char>)
    ensures Fields(s, seps)[0] == s[..FirstIndex(s, seps)]
    decreases |s|
  {
    if |s| > 0 && s[0] !in seps {
      FieldsFirst(s[1..], seps);
      assert s[..FirstIndex(s, seps)] == [s[0]] + s[1..][..FirstIndex(s[1..], seps)];
    }
  }

  /** Some raw field after the first is non-empty. */
  ghost predicate LaterText(fs: seq<string>) {
    exists k :: 1 <= k < |fs| && fs[k] != ""
  }

  /** A non-empty field after the first one exists exactly when a separator is followed by text. */
  lemma {:induction false} FieldsLaterText(s: string, seps: set<char>)
    ensures (exists k :: 1 <= k < |Fields(s, seps)| && Fields(s, seps)[k] != "") <==> SeparatorThenText(s, seps)
    decreases |s|
  {
    if |s| > 0 {
      if s[0] in seps {
        LaterTextAfterSeparator(s, seps);
      } else {
        FieldsLaterText(s[1..], seps);
        LaterTextAfterText(s, seps);
      }
    }
  }

  /** A leading separator: later text exists exactly when the rest is not all separators. */
  lemma LaterTextAfterSeparator(s: string, seps: set<char>)
    requires |s| > 0 && s[0] in seps
    ensures LaterText(Fields(s, seps)) <==> SeparatorThenText(s, seps)
  {
    var rest := Fields(s[1..], seps);
    var fs := Fields(s, seps);
    assert fs == [""] + rest;
    FieldsAllEmpty(s[1..], seps);
    if LaterText(fs) {
      var k :| 1 <= k < |fs| && fs[k] != "";
      assert rest[k - 1] != "";
      var j :| 0 <= j < |s[1..]| && s[1..][j] !in seps;
      assert s[0] in seps && s[j + 1] !in seps;
    }
    if SeparatorThenText(s, seps) {
      var i, j :| 0 <= i < j < |s| && s[i] in seps && s[j] !in seps;
      assert s[1..][j - 1] !in seps;
      var k :| 0 <= k < |rest| && rest[k] != "";
      assert fs[k + 1] != "";
    }
  }

  /** A leading non-separator only extends the first field: later text is that of the rest. */
  lemma LaterTextAfterText(s: string, seps: set<char>)
    requires |s| > 0 && s[0] !in seps
    requires LaterText(Fields(s[1..], seps)) <==> SeparatorThenText(s[1..], seps)
    ensures LaterText(Fields(s, seps)) <==> SeparatorThenText(s, seps)
  {
    LaterFieldsOfText(s, seps);
    SeparatorThenTextOfText(s, seps);
  }

  lemma LaterFieldsOfText(s: string, seps: set<char>)
    requires |s| > 0 && s[0] !in seps
    ensures LaterText(Fields(s, seps)) <==> LaterText(Fields(s[1..], seps))
  {
    var rest := Fields(s[1..], seps);
    var fs := Fields(s, seps);
    assert fs == [[s[0]] + rest[0]] + rest[1..];
    assert |fs| == |rest|;
    assert forall k :: 1 <= k < |fs| ==> fs[k] == rest[k];
  }

  lemma SeparatorThenTextOfText(s: string, seps: set<char>)
    requires |s| > 0 && s[0] !in seps
    ensures SeparatorThenText(s, seps) <==> SeparatorThenText(s[1..], seps)
  {
    if SeparatorThenText(s, seps) {
      var i, j :| 0 <= i < j < |s| && s[i] in seps && s[j] !in seps;
      assert i > 0;
      assert s[1..][i - 1] in seps && s[1..][j - 1] !in seps;
    }
    if SeparatorThenText(s[1..], seps) {
      var i, j :| 0 <= i < j < |s[1..]| && s[1..][i] in seps && s[1..][j] !in seps;
      assert s[i + 1] in seps && s[j + 1] !in seps;
    }
  }

  // ---------------------------------------------------------------------------
  // String#split with a one-character separator

  /** `split` yields no field at all exactly when the string is made only of separators. */
  lemma SplitEmptyIff(s: string, sep: char)
    ensures |Split(s, sep)| == 0 <==> AllIn(s, {sep})
  {
    var seps := {sep};
    var r := DropTrailingEmpty(Fields(s, seps));
    assert r == Split(s, sep);
    FieldsAllEmpty(s, seps);
    if |r| > 0 {
      assert Fields(s, seps)[|r| - 1] == r[|r| - 1];
      assert Fields(s, seps)[|r| - 1] != "";
      assert !AllIn(s, seps);
    } else {
      assert forall k :: 0 <= k < |Fields(s, seps)| ==> Fields(s, seps)[k] == "";
      assert AllIn(s, seps);
    }
  }

  /** `split` yields more than one field exactly when a separator is followed later by text. */
  lemma SplitManyIff(s: string, sep: char)
    ensures |Split(s, sep)| > 1 <==> SeparatorThenText(s, {sep})
  {
    FieldsLaterText(s, {sep});
    var fs := Fields(s, {sep});
    var r := Split(s, sep);
    if |r| > 1 {
      assert fs[|r| - 1] != "";
    }
    if exists k :: 1 <= k < |fs| && fs[k] != "" {
      var k :| 1 <= k < |fs| && fs[k] != "";
      assert k < |r|;
    }
  }

  /** The first field of a non-empty `split` is the text before the first separator. */
  lemma SplitFirst(s: string, sep: char)
    requires |Split(s, sep)| > 0
    ensures Split(s, sep)[0] == s[..FirstIndex(s, {sep})]
  {
    FieldsFirst(s, {sep});
  }

  /** `s.split(sep).first || ""` is the text before the first separator, empty when `s` is all separators. */
  lemma SplitFirstOrEmpty(s: string, sep: char)
    ensures First(Split(s, sep)).GetOr("") == s[..FirstIndex(s, {sep})]
  {
    SplitEmptyIff(s, sep);
    if |Split(s, sep)| > 0 {
      SplitFirst(s, sep);
    } else if |s| > 0 {
      assert s[0] in {sep};
    }
  }

  /** Every field of `split` is non-empty at the end and free of the separator. */
  lemma SplitFieldsPlain(s: string, sep: char)
    ensures forall k, j :: 0 <= k < |Split(s, sep)| && 0 <= j < |Split(s, sep)[k]| ==> Split(s, sep)[k][j] != sep
  {
    var fs := Fields(s, {sep});
    var r := Split(s, sep);
    assert forall k :: 0 <= k < |r| ==> r[k] == fs[k];
  }

  /** A separator-free, non-empty string splits into itself. */
  lemma SplitPlain(s: string, sep: char)
    requires s != "" && NoneIn(s, {sep})
    ensures Split(s, sep) == [s]
  {
    FieldsOfPlain(s, {sep});
  }

  /** Splitting `x + sep + y`, where `y` is non-empty and separator-free, ends with the field `y`. */
  lemma SplitEndsWith(x: string, sep: char, y: string)
    requires y != "" && NoneIn(y, {sep})
    ensures Split(x + [sep] + y, sep) == Fields(x, {sep}) + [y]
  {
    FieldsAppend(x, sep, y, {sep});
    FieldsOfPlain(y, {sep});
  }

  // ---------------------------------------------------------------------------
  // String#split with a regular expression matching runs of separators

  /**
   * The first field of a run split: nil exactly when the string is made only
   * of separators, otherwise the text before the first separator (empty when
   * the string starts with one).
   */
  lemma SplitOnRunsFirst(s: string, seps: set<char>)
    ensures First(SplitOnRuns(s, seps)) == if AllIn(s, seps) then None else Some(s[..FirstIndex(s, seps)])
  {
    var fs := Fields(s, seps);
    var g := [fs[0]] + NonEmpty(fs[1..]);
    var r := DropTrailingEmpty(g);
    FieldsAllEmpty(s, seps);
    FieldsFirst(s, seps);
    if AllIn(s, seps) {
      NonEmptyOfEmpties(fs[1..]);
      assert g == [""];
    } else {
      var k :| 0 <= k < |fs| && fs[k] != "";
      if k == 0 {
        assert g[0] != "";
      } else {
        assert fs[k] in fs[1..];
        assert fs[k] in NonEmpty(fs[1..]);
        var m :| 0 <= m < |NonEmpty(fs[1..])| && NonEmpty(fs[1..])[m] == fs[k];
        assert g[m + 1] != "";
      }
      assert |r| > 0;
    }
  }

  lemma NonEmptyOfEmpties(fs: seq<string>)
    requires forall k :: 0 <= k < |fs| ==> fs[k] == ""
    ensures NonEmpty(fs) == []
  {
  }

  /** No field of a run split contains a separator. */
  lemma SplitOnRunsFieldsPlain(s: string, seps: set<char>)
    ensures forall k, j :: 0 <= k < |SplitOnRuns(s, seps)| && 0 <= j < |SplitOnRuns(s, seps)[k]| ==> SplitOnRuns(s, seps)[k][j] !in seps
  {
    var fs := Fields(s, seps);
    var g := [fs[0]] + NonEmpty(fs[1..]);
    forall k | 1 <= k < |g| ensures g[k] in fs {
      assert g[k] in NonEmpty(fs[1..]);
    }
  }

  // ---------------------------------------------------------------------------
  // String#include?

  /** Ruby's `hay.include?(needle)`. */
  predicate Contains(hay: string, needle: string)
    decreases |hay|
  {
    needle <= hay || (|hay| > 0 && Contains(hay[1..], needle))
  }

  ghost predicate OccursAt(hay: string, needle: string, i: int) {
    0 <= i && i + |needle| <= |hay| && hay[i..i + |needle|] == needle
  }

  /** `Contains` is substring search: the needle occurs at some position. */
  lemma {:induction false} ContainsIff(hay: string, needle: string)
    ensures Contains(hay, needle) <==> exists i :: OccursAt(hay, needle, i)
    decreases |hay|
  {
    if needle <= hay {
      assert OccursAt(hay, needle, 0);
    } else if |hay| > 0 {
      assert !OccursAt(hay, needle, 0);
      ContainsIff(hay[1..], needle);
      if exists i :: OccursAt(hay[1..], needle, i) {
        var i :| OccursAt(hay[1..], needle, i);
        OccursShift(hay, needle, i + 1);
      }
      if exists i :: OccursAt(hay, needle, i) {
        var i :| OccursAt(hay, needle, i);
        assert i > 0;
        OccursShift(hay, needle, i);
      }
    } else {
      assert |needle| > 0;
    }
  }

  /** An occurrence past the first character is an occurrence in the rest, one position earlier. */
  lemma OccursShift(hay: string, needle: string, i: int)
    requires 0 < i && |hay| > 0
    ensures OccursAt(hay, needle, i) <==> OccursAt(hay[1..], needle, i - 1)
  {
    if i + |needle| <= |hay| {
      assert hay[1..][i - 1..i - 1 + |needle|] == hay[i..i + |needle|];
    }
  }

  /** Every string includes the empty string. */
  lemma ContainsEmpty(hay: string)
    ensures Contains(hay, "")
  {
    assert "" <= hay;
  }

  // ---------------------------------------------------------------------------
  // String#strip

  /** The characters Ruby's `strip` removes: NUL, tab, line feed, vertical tab, form feed, carriage return, space. */
  const StripSpace: set<char> := {'\0', '\t', '\n', '\U{B}', '\U{C}', '\r', ' '}

  /** Index of the first character `strip` keeps (or `|s|`). */
  function StripStart(s: string): (i: nat)
    ensures i <= |s|
    ensures forall k :: 0 <= k < i ==> s[k] in StripSpace
    ensures i < |s| ==> s[i] !in StripSpace
  {
    if |s| == 0 || s[0] !in StripSpace then 0 else 1 + StripStart(s[1..])
  }

  /** One past the last character `strip` keeps (or 0). */
  function StripEnd(s: string): (j: nat)
    ensures j <= |s|
    ensures forall k :: j <= k < |s| ==> s[k] in StripSpace
    ensures j > 0 ==> s[j - 1] !in StripSpace
  {
    if |s| == 0 || s[|s| - 1] !in StripSpace then |s| else StripEnd(s[..|s| - 1])
  }

  /** Ruby's `String#strip`. */
  function Strip(s: string): (r: string)
    ensures r == "" || (r[0] !in StripSpace && r[|r| - 1] !in StripSpace)
    ensures r == "" ==> AllIn(s, StripSpace)
    ensures r != "" ==> StripStart(s) + |r| <= |s| && r == s[StripStart(s)..StripStart(s) + |r|]
    ensures r != "" ==> AllIn(s[StripStart(s) + |r|..], StripSpace)
  {
    var i := StripStart(s);
    var j := StripEnd(s);
    if i == |s| then "" else s[i..j]
  }
}

=== FILE: ruby_values.dfy ===
/**
 * The Ruby values the validators receive and inspect: attribute values,
 * parsed JSON, OpenStruct records and arbitrary upload objects, with
 * ActiveSupport's `blank?`, Ruby truthiness and zero-argument method calls.
 */
module RubyValues {
  import opened Wrappers

  /**
   * A Ruby value. `Struct` is an OpenStruct built from a hash; `Obj` is any
   * other object, given by what each of its zero-argument methods returns.
   */
  datatype Value =
    | Nil
    | Bool(b: bool)
    | Int(n: int)
    | Str(s: string)
    | Arr(elems: seq<Value>)
    | Hash(entries: map<string, Value>)
    | Struct(fields: map<string, Value>)
    | Obj(methods: map<string, Value>)

  /** The exceptions a method call on a value can raise. */
  datatype RubyError =
    | NoMethodError(name: string)
    | ComparisonFailed
    | TypeError

  /** What `JSON.parse` does with a string: a value, or `JSON::ParserError`. */
  datatype Parsed = Parsed(value: Value) | ParserError

  /** The JSON parser, which is not part of this model. */
  type JsonParser = string -> Parsed

  /** The characters of the POSIX class `[[:space:]]` in Ruby's Unicode regular expressions. */
  const UnicodeSpace: set<char> := {
    '\t', '\n', '\U{B}', '\U{C}', '\r', ' ', '\U{85}', '\U{A0}', '\U{1680}',
    '\U{2000}', '\U{2001}', '\U{2002}', '\U{2003}', '\U{2004}', '\U{2005}',
    '\U{2006}', '\U{2007}', '\U{2008}', '\U{2009}', '\U{200A}',
    '\U{2028}', '\U{2029}', '\U{202F}', '\U{205F}', '\U{3000}'
  }

  /** Everything except `nil` and `false` is true in a condition. */
  predicate Truthy(v: Value) {
    !(v.Nil? || v == Bool(false))
  }

  /**
   * ActiveSupport's `blank?`: nil and false; strings of whitespace only;
   * empty arrays and hashes. An OpenStruct or other object that defines its
   * own `blank?` (an OpenStruct key defines a method of that name) answers
   * it; otherwise it is blank when it responds to `empty?` with a truthy
   * answer. Numbers and `true` are never blank.
   */
  predicate Blank(v: Value) {
    match v
    case Nil => true
    case Bool(b) => !b
    case Int(_) => false
    case Str(s) => forall i :: 0 <= i < |s| ==> s[i] in UnicodeSpace
    case Arr(e) => |e| == 0
    case Hash(h) => |h| == 0
    case Struct(f) => if "blank?" in f then Truthy(f["blank?"]) else "empty?" in f && Truthy(f["empty?"])
    case Obj(m) => if "blank?" in m then Truthy(m["blank?"]) else "empty?" in m && Truthy(m["empty?"])
  }

  predicate Present(v: Value) {
    !Blank(v)
  }

  /** The number of bytes needed to write `m` in binary, at least one. */
  function ByteLength(m: nat): (r: nat)
    ensures r >= 1
  {
    if m < 256 then 1 else 1 + ByteLength(m / 256)
  }

  /** `Integer#size`: 8 for a fixnum on a 64-bit build, the byte length of the magnitude for a bignum. */
  function IntegerSize(n: int): (r: nat)
    ensures -0x4000_0000_0000_0000 <= n < 0x4000_0000_0000_0000 ==> r == 8
    ensures r >= 1
  {
    if -0x4000_0000_0000_0000 <= n < 0x4000_0000_0000_0000 then 8
    else ByteLength(if n < 0 then -n else n)
  }

  /**
   * `v.respond_to?(name)` for the zero-argument methods the validators ask
   * about: an OpenStruct answers for its own keys, an object for its methods,
   * strings, arrays, hashes and integers for `size`, and arrays for `to_ary`.
   */
  predicate RespondTo(v: Value, name: string) {
    match v
    case Struct(f) => name in f
    case Obj(m) => name in m
    case Str(_) => name == "size"
    case Arr(_) => name == "size" || name == "to_ary"
    case Hash(_) => name == "size"
    case Int(_) => name == "size"
    case _ => false
  }

  /**
   * Calling the zero-argument method `name` on `v`. An OpenStruct returns nil
   * for a key it does not have; every other value raises NoMethodError for a
   * method it does not respond to.
   */
  function Send(v: Value, name: string): (r: Result<Value, RubyError>)
    ensures RespondTo(v, name) ==> r.Ok?
    ensures r.Err? ==> r.error == NoMethodError(name) && !RespondTo(v, name)
    ensures v.Struct? && name !in v.fields ==> r == Ok(Nil)
    ensures v.Obj? && name in v.methods ==> r == Ok(v.methods[name])
  {
    match v
    case Struct(f) => if name in f then Ok(f[name]) else Ok(Nil)
    case Obj(m) => if name in m then Ok(m[name]) else Err(NoMethodError(name))
    case Str(s) => if name == "size" then Ok(Int(|s|)) else Err(NoMethodError(name))
    case Arr(e) => if name == "size" then Ok(Int(|e|)) else if name == "to_ary" then Ok(v) else Err(NoMethodError(name))
    case Hash(h) => if name == "size" then Ok(Int(|h|)) else Err(NoMethodError(name))
    case Int(n) => if name == "size" then Ok(Int(IntegerSize(n))) else Err(NoMethodError(name))
    case _ => Err(NoMethodError(name))
  }

  /** `size` counts characters, elements or entries. */
  lemma SizeOfCollections(v: Value)
    ensures v.Str? ==> Send(v, "size") == Ok(Int(|v.s|))
    ensures v.Arr? ==> Send(v, "size") == Ok(Int(|v.elems|))
    ensures v.Hash? ==> Send(v, "size") == Ok(Int(|v.entries|))
  {
  }

  /**
   * ActiveSupport's `Array.wrap`: nil becomes `[]`; an object that responds
   * to `to_ary` gives that answer when it is an array and is wrapped when
   * the answer is nil or false; anything else is wrapped. None stands for a
   * truthy `to_ary` answer that is not an array, which `Array.wrap` returns
   * as it is.
   */
  function Wrap(v: Value): (r: Option<seq<Value>>)
    ensures v.Nil? ==> r == Some([])
    ensures !v.Nil? && !RespondTo(v, "to_ary") ==> r == Some([v])
    ensures !v.Nil? && RespondTo(v, "to_ary") ==>
              var a := Send(v, "to_ary").value;
              (a.Arr? ==> r == Some(a.elems)) && (!Truthy(a) ==> r == Some([v])) && (Truthy(a) && !a.Arr? ==> r.None?)
  {
    if v.Nil? then Some([])
    else if !RespondTo(v, "to_ary") then Some([v])
    else
      var a := Send(v, "to_ary").value;
      if a.Arr? then Some(a.elems)
      else if !Truthy(a) then Some([v])
      else None
  }

  /** An array is its own `to_ary`, so `Array.wrap` gives back its elements. */
  lemma WrapArray(elems: seq<Value>)
    ensures Wrap(Arr(elems)) == Some(elems)
  {
  }

  /** `Array.wrap` is idempotent: wrapping what it gave, as an array, gives the same elements. */
  lemma WrapIdempotent(v: Value)
    requires Wrap(v).Some?
    ensures Wrap(Arr(Wrap(v).value)) == Wrap(v)
  {
    WrapArray(Wrap(v).value);
  }

  /** `values.reject(&:blank?)`, keeping order. */
  function RejectBlank(vs: seq<Value>): (r: seq<Value>)
    ensures forall i :: 0 <= i < |r| ==> Present(r[i])
    ensures forall v :: v in r <==> v in vs && Present(v)
    ensures |r| <= |vs|
  {
    if |vs| == 0 then []
    else if Blank(vs[0]) then RejectBlank(vs[1..])
    else [vs[0]] + RejectBlank(vs[1..])
  }
}

=== FILE: validation_errors.dfy ===
/**
 * What the validators add to `record.errors`: the attribute and the error
 * key. Messages, interpolation options and I18n are not part of this model.
 */
module ValidationErrors {

  /** One `record.errors.add(attribute, key, ...)`. */
  datatype Entry = Entry(attribute: string, key: string)

  /** The ArgumentError raised by `check_validity!`, with its message. */
  datatype ArgumentError = ArgumentError(message: string)

  /** How many times `key` was added for `attribute`. */
  function Count(errors: seq<Entry>, attribute: string, key: string): (n: nat)
    ensures n <= |errors|
    ensures n == 0 <==> Entry(attribute, key) !in errors
  {
    if |errors| == 0 then 0
    else (if errors[0] == Entry(attribute, key) then 1 else 0) + Count(errors[1..], attribute, key)
  }

  lemma {:induction false} CountAppend(a: seq<Entry>, b: seq<Entry>, attribute: string, key: string)
    ensures Count(a + b, attribute, key) == Count(a, attribute, key) + Count(b, attribute, key)
  {
    if |a| == 0 {
      assert a + b == b;
    } else {
      assert (a + b)[1..] == a[1..] + b;
      CountAppend(a[1..], b, attribute, key);
    }
  }
}

=== FILE: wrappers.dfy ===
/** Option and Result: absence (Ruby's nil) and raised exceptions as values. */
module Wrappers {

  datatype Option<+T> = None | Some(value: T) {

    /** The wrapped value, or `default` for None (Ruby's `x || default`). */
    function GetOr(default: T): T {
      match this
      case Some(v) => v
      case None => default
    }
  }

  /** Either a returned value or the exception the Ruby code would raise. */
  datatype Result<+T, +E> = Ok(value: T) | Err(error: E) {

    predicate IsFailure() {
      Err?
    }

    function PropagateFailure<U>(): Result<U, E>
      requires Err?
    {
      Err(error)
    }

    function Extract(): T
      requires Ok?
    {
      value
    }
  }
}

/** Raw file and stream contents. */
module Bytes {
  type byte = x: int | 0 <= x < 256
  type Bytes = seq<byte>
}
